=== FILE: README.md ===
# Extended dates and site search in Writ Large

Writ Large maps historical writing-education sites. A site's founding and
closing dates are rarely known to the day. The application therefore keeps
each date as an EDTF string: the Extended Date/Time Format, Level 1, of
the Library of Congress draft that became ISO 8601-2:2019.

Curators never type these strings. A form asks for one digit per tier
(millennium, century, decade, year), an optional month and day, and two
check boxes, "approximate" and "uncertain"; a second set of the same
fields makes the date a range.

This project models four pieces of that application in Dafny:

- **Models** (`models.dfy`): the encoder from the form's digits to an EDTF
  string (`to_edtf`), including the `TypeError` it raises for a day without
  a month; the dictionary front end that joins two sides with `/`
  (`from_dict`); the empty-value short-circuit of the display text; and the
  guard against the date library's overflow year.
- **Utils** (`utils.dfy`): the wrapper that turns the date library's parse
  of a stored string into English text ("3rd millenium", "1400s",
  "c. 1659?", "June 30, 1659") and back into form fields (`to_dict`), and
  the helpers `filter_fields` and `format_date_range`.
- **Forms** (`forms.dfy`): the bounds of the form's integer fields, the
  fixed order in which `clean` rejects a date (and the forms on which it
  raises instead, in `from_dict` or in `start()`), and the flattening of the error dictionary into one line
  of HTML.
- **Mixins** (`mixins.dfy`): the search lexer that splits a query into
  plain, quoted, `category:` and `tag:` terms; the test that drops a site
  whose known years lie outside the requested span; and the gate deciding
  whether the year filter applies at all.

Two more files support them:

- `common.dfy` holds Python's decimal text of integers, `int()` on digit
  strings, substring search and `str.strip()`.
- `grammar.dfy` is a reference reader of the EDTF strings the form can
  produce.

The python-edtf library parses the stored strings. It is not part of this
model, so its parse result (`Utils.ParseResult`) is an input. The
reference reader in `grammar.dfy` plays the library's part for the strings
the encoder writes. It is the independent partner against which the
encoder, the display text and `to_dict` are proved:

- decoding what `to_edtf` writes gives back the intended date;
- the display text of that date is a description computed directly from
  the form's digits;
- `to_dict` followed by reading the dictionary back returns the form's
  fields.

Two places where the code disagrees with its own tests or evident intent;
the model follows the code:

- `ExtendedDate.__str__` returns the empty text for `unknown`
  (writlarge/main/models.py:80-81), although a test expects `?` for an
  empty form (writlarge/main/tests/test_models.py:46). The model states the empty text
  (`Models.EmptyFormDisplaysNothing`).
- `ordinal` computes `n / 10 % 10` with Python 3's float division, so the
  test meant to exclude the teens fires only for numbers ending in 10.
  Both readings are modelled (see Findings).

## Model

| member | source | states |
|---|---|---|
| Models.ToEdtf | writlarge/main/models.py:21-46 | the stored string is never shorter than four characters, and it is exactly `unknown` when, and only when, all six digit fields are absent |
| Models.ToEdtfQualifiers | writlarge/main/models.py:43-44 | for a dated side, the last character is `~` exactly when approximate, and `?` exactly when uncertain but not approximate; both qualifiers together end the string in `?~` |
| Models.ToEdtfNoneIffGap | writlarge/main/models.py:26-39 | the string contains the text `None` exactly when a coarser tier is missing below the finest present one, because no branch checks the coarser fields |
| Models.FromDict | writlarge/main/models.py:48-65 | the result contains `/` exactly when `is_range` is truthy; a single date is side 1 encoded; a range is side 1 and side 2 encoded, split at a `/` |
| Models.MissingKeyIsNull | writlarge/main/models.py:48-61 | a key missing from the dictionary behaves exactly like a key holding `None` |
| Models.EncodeSide | writlarge/main/models.py:21-46 | `to_edtf` raises exactly for a side with a day but no month, where `{:0>2d}` receives `None`; otherwise its string has at least four characters, is `unknown` exactly for an empty side, and holds no `/` |
| Models.FromDictChecked | writlarge/main/models.py:48-65 | `from_dict` raises exactly when side 1, or side 2 of a range, has a day but no month; otherwise it returns the string `Models.FromDict` describes |
| Models.DayAloneRaises | writlarge/main/models.py:48-54 | a dictionary holding only `day1`, a day 1..31 as the form lets through, makes `from_dict` raise |
| Models.NoSlashInSide | writlarge/main/models.py:21-46 | one encoded side never contains `/`, so the range separator is unambiguous |
| Models.EmptyFormDisplaysNothing | writlarge/main/models.py:48-81 | `from_dict` yields `unknown` exactly for a single date with no digit, and `__str__` (`Models.DisplayText`) shows such a date as the empty text |
| Models.ValidatePythonDate | writlarge/main/models.py:91-95 | the date is dropped exactly when its year is 9999, the library's overflow value, and is otherwise returned unchanged |
| Common.PadTwoValue | writlarge/main/models.py:27-31 | month and day numbers 0..99 are written as exactly two digits, and `int()` reads the number back |
| Utils.Create | writlarge/main/utils.py:78-94 | an upper side exists exactly for an interval; a failed parse gives a marker side exactly for `unknown` or `open`, carrying that text, and an invalid side otherwise |
| Utils.ReservedTexts | writlarge/main/utils.py:158-212 | `?` is displayed exactly for the `unknown` marker and `present` exactly for `open`; `invalid` exactly for an unparsed side or an unqualified side of unsupported precision |
| Utils.FmtPrecisionNotInvalid | writlarge/main/utils.py:178-205 | year, month and day precision never render as `invalid` |
| Utils.QualifiersReadBack | writlarge/main/utils.py:214-222 | a dated side is approximate exactly when its text starts with `c. `, and uncertain exactly when its text ends with `?` |
| Utils.FmtMonth | writlarge/main/utils.py:171-176 | the month name is one of the twelve names exactly when the month code reads as an integer 1..12, and `unknown month` otherwise |
| Utils.ToDict | writlarge/main/utils.py:224-238 | invalid and marker sides give an empty dictionary; a dated side gives the eight keys suffixed with the ordinal; `millenium` is always the first code character, and a century, decade or year entry is empty exactly when its code position is `u` |
| Utils.DictKeysCount | writlarge/main/utils.py:229-238 | the dictionary has exactly eight distinct keys, each a field name followed by the ordinal |
| Utils.FilterFields | writlarge/main/utils.py:52-57 | a key is in the result exactly when the prefix followed by that key is in the input, and its value is carried over unchanged |
| Utils.FormatDateRange | writlarge/main/utils.py:250-266 | an open range reads `<start or ?> - present` whatever the end; an ended range reads `<start or ?> - <end or ?>` |
| Utils.OrdinalSuffix | writlarge/main/utils.py:152-156 | the corrected ordinal is the decimal text followed by the English suffix: `th` for 11, 12 and 13, otherwise `st`, `nd` and `rd` after 1, 2 and 3 |
| Utils.OrdinalAsWrittenEleven | writlarge/main/utils.py:155-156 | as written, 11 becomes `11st`; the corrected ordinal gives `11th` |
| Utils.OrdinalsAgreeOutsideTeens | writlarge/main/utils.py:152-156 | outside the teens, the ordinal as written and the corrected one agree, so `Utils.FmtMillenium`, which keeps the as-written one, still gives `2nd` and `3rd` |
| Forms.BoundedSideNone | writlarge/main/forms.py:11-37 | within the field bounds, the stored string contains `None` exactly when a tier is missing below the finest present one |
| Forms.LibraryDate | writlarge/main/forms.py:54-64 | a start or end date exists exactly when the library produced one whose year is not 9999, and it is that date |
| Forms.SingleDateError | writlarge/main/forms.py:66-77 | a single date with no start is reported as not valid; a start after today is reported as in the future; any other start is accepted |
| Forms.RangeError | writlarge/main/forms.py:79-91 | a range reports the first failing check, in order: no start, no end, either date after today, start after end |
| Forms.RangeAccepted | writlarge/main/forms.py:79-91 | a range is accepted exactly when both dates exist and start <= end <= today |
| Forms.CleanError | writlarge/main/forms.py:29-40 | the "valid date" message comes exactly from display text containing `invalid` or `None`, or from a single date without a start; a clean range answers only with the four range messages, and a single date only with the two single-date messages |
| Forms.CleanAsWritten | writlarge/main/forms.py:29-58 | `clean` raises exactly when `from_dict` cannot encode the form, or when the display text passes the `invalid`/`None` test but the library does not read the stored string, so that `start()` raises `AttributeError`; otherwise it finishes with the message `Forms.CleanError` gives |
| Forms.DayAloneCrashesClean | writlarge/main/forms.py:16-31 | a form with only `day1` filled in, within its bounds 1..31, makes `clean` raise |
| Forms.EmptySingleCrashesClean | writlarge/main/models.py:79-105 | an empty single-date form is stored as `unknown` and shows as the empty text, so it passes the display test; with `unknown` unread by the library, `start()` then makes `clean` raise |
| Forms.CleanCheckedAgrees | writlarge/main/forms.py:29-40 | the corrected `clean` never raises: where the written one raises it answers "Please specify a valid start date" for an encodable range and "Please specify a valid date" otherwise, and everywhere else it gives the written one's message |
| Forms.CleanAccepts | writlarge/main/forms.py:29-91 | the form is accepted exactly when the display text is clean, a start exists, and the dates are ordered up to today |
| Forms.GetErrorMessages | writlarge/main/forms.py:45-52 | the loop produces, for every entry, `key: ` (left out for `__all__`), the first message and `<br />`; no entries give the empty text |
| Forms.LinesAppend | writlarge/main/forms.py:46-51 | the message text of two error lists in sequence is the concatenation of their texts |
| Forms.NonFieldError | writlarge/main/forms.py:48-51 | an `__all__` entry shows its first message without a key |
| Grammar.CodePartIsYearCode | writlarge/main/models.py:33-39 | the year code the encoder prints is the form's digits followed by a trailing run of `u` |
| Grammar.DecodeToEdtf | writlarge/main/models.py:21-46 | reading back the string of a valid form side gives the intended side: same year code, two-digit month and day, and the two qualifiers |
| Grammar.DecodeJoined | writlarge/main/models.py:63 | two encoded sides joined with `/` read back as the interval of the two intended sides |
| Grammar.DecodeFromDict | writlarge/main/models.py:48-65 | the string `from_dict` stores reads back as the intended single date, or the intended interval when `is_range` is set |
| Grammar.FormRoundTrip | writlarge/main/utils.py:224-238 | `to_dict` of the date a valid form side describes, read back as form values, returns that side's fields, with an absent flag read as false |
| Grammar.PreciseYearOfCode | writlarge/main/utils.py:143-144 | the precise year of a year code is its earliest reading, with wildcards taken as 0 |
| Grammar.MonthNameOf | writlarge/main/utils.py:171-176 | a month 1..12 written with two digits renders as its English name |
| Grammar.FmtYearOfFields | writlarge/main/utils.py:192-205 | at year precision, a millennium code renders as the ordinal of the next millennium; a century or decade code as its first year plus `s`; a full year as the year |
| Grammar.DisplayOfFields | writlarge/main/utils.py:178-222 | the display text of a valid form side is `?` for an empty side; otherwise it is the description from its digits, with `c. ` before it when approximate and `?` after it when uncertain |
| Grammar.CenturyAndFirstDecadeAlike | writlarge/main/utils.py:197-203 | the 15th century (`14uu`) and the decade 1400-1409 (`140u`) are different dates that both display as `1400s` |
| Mixins.NextMatch | writlarge/main/mixins.py:118-126 | the match at each position is a prefix of the rest; it is END only at the end; a quoted match is a closed quote with no quote inside; keyword matches start with their prefix; a space match is only spaces; a character match is one character |
| Mixins.TokenizePieces | writlarge/main/mixins.py:117-141 | a query of words (colons allowed, as in `10:30`, as long as no `category:` or `tag:` starts inside the word), quoted phrases, `category:` and `tag:` terms, after any number of leading spaces, separated by runs of one or more spaces and followed by any number of trailing spaces, lexes to their meanings, strictly left to right |
| Mixins.ScanChar | writlarge/main/mixins.py:121-130 | where no quote, keyword or space starts, one character joins the pending plain term, tabs and other whitespace included |
| Mixins.ScanQuote | writlarge/main/mixins.py:136-137 | a quoted phrase yields its inner text, without the quotes, before the rest of the query |
| Mixins.ScanKeywordStep | writlarge/main/mixins.py:120-121 | a keyword term runs to the first whitespace or the end, and yields its value with the 9- or 4-character prefix removed and stripped |
| Mixins.ScanBlank | writlarge/main/mixins.py:122-135 | a run of spaces of any length is one match: it emits the pending plain term, if there is one, once, and the scan goes on after the run with a fresh term |
| Mixins.CategoryInsideWord | writlarge/main/mixins.py:128-139 | a keyword inside a plain word splits it: `x` `category:v` `w` yields the category first, then the word `x` + `w` |
| Mixins.QuoteOvertakesWord | writlarge/main/mixins.py:128-137 | a quoted phrase glued to a word is yielded before the word, because the word is emitted only at a space or the end |
| Mixins.ExcludedIffDisjoint | writlarge/main/mixins.py:168-171 | with both years known, a site is dropped exactly when its span does not overlap the requested one |
| Mixins.UnknownNeverExcluded | writlarge/main/mixins.py:168-171 | a site with no known year is never dropped; a dropped site has a known first year after the end, or a known last year before the start |
| Mixins.ZeroYearIsUnknown | writlarge/main/mixins.py:168 | a first year of 0 counts as unknown, by Python's truthiness |
| Mixins.DroppedIdsMembership | writlarge/main/mixins.py:164-171 | an id is dropped exactly when some site with that id fails the overlap test |
| Mixins.ProcessYears | writlarge/main/mixins.py:164-173 | the loop collects, in site order, the ids of the sites that fail the overlap test |
| Mixins.PythonIntOfDigits | writlarge/main/mixins.py:186 | `int()` of a non-empty string of ASCII digits is its decimal value |
| Mixins.PythonIntOfString | writlarge/main/mixins.py:186 | `int(str(n)) == n` for every integer, negative ones included |
| Mixins.PythonIntIgnoresUnderscores | writlarge/main/mixins.py:186 | digits with single underscores between them read as the same digits without the underscores |
| Mixins.YearFilterOf | writlarge/main/mixins.py:182-186 | the year filter applies exactly when both parameters begin with 1 or 2 and three more digits; it then uses their `int()` values, and otherwise `int()` raises |
| Mixins.YearFilterOfFourDigits | writlarge/main/mixins.py:184-186 | four-character year parameters that pass the gate always convert, to years 1000..2999 |
| Mixins.UnderscoredYearFilter | writlarge/main/mixins.py:184-186 | the gate checks only the first four characters, so a parameter such as `1999_0` passes and filters by the year 19990 |
| Mixins.TrailingTextRaises | writlarge/main/mixins.py:184-186 | a gated parameter whose remaining text starts with neither a digit nor `_` and does not end in whitespace, such as `1999-01`, makes `int()` raise (trailing whitespace alone is stripped by `int()`) |

## Left out

- The python-edtf library is not part of this model. That covers `parse_edtf`, `text_to_edtf`, `_strict_date`, `lower_strict`, `upper_strict`, `_precise_year`, and with them `ExtendedDate.start`/`end`, `start_date`/`end_date`, `create_from_string` and `match_string`. Parse results and library dates are inputs. The precise year is its earliest reading, wildcards read as 0.
- Forms.CleanAsWritten: whether the library reads the stored string is an input (`parsed`); `unknown` is one it does not read, as writlarge/main/utils.py:89 relies on. For an unread string, `start()` raises an `AttributeError` that nothing catches, because the second `except AttributeError` (writlarge/main/models.py:104-105) can never run and `get_start_date` catches only `ValueError`; the model has `clean` raise there. A parsed object that has neither `_strict_date` nor `lower_strict` belongs to the library and is not modelled.
- `edtf_to_text`, `append_uncertain` and `append_approximate` are imported from writlarge.main.utils (writlarge/main/models.py:15-16), but that utils.py does not define them. The qualifiers are taken as a trailing `?` then `~`, as the stored examples show. The rendering of a whole stored string is an input to `Models.DisplayText`.
- How the library presents the `unknown` and `open` ends of an interval is not modelled; `Utils.Create` takes the sides of an interval as given.
- `Forms.LibraryDate`: `date.today()` is a parameter, and a `ValueError` from the library is an absent date.
- Models.ToEdtf: requires a month whenever a day is given. There the source's `'{:0>2d}'.format(None)` raises `TypeError` (writlarge/main/models.py:26-28), so the encoder has no result. `Models.EncodeSide`, `Models.FromDictChecked` and `Forms.CleanAsWritten` model that failure (see Findings).
- Models.FromDict: says nothing about a side with a day but no month, where the source raises; `Models.FromDictChecked` covers that case.
- Models.ToEdtfNoneIffGap: says nothing about a side with a day but no month, where the source raises before any text exists.
- Models.EmptyFormDisplaysNothing: says nothing about a form with a day but no month, where the source raises before any text exists.
- Forms.BoundedSideNone: says nothing about a side with a day but no month, where the source raises before any text exists.
- Models.FromDict: digit keys are assumed to hold integers or nothing. The form's integer fields never give booleans there, so a boolean in a digit key is outside the model.
- Negative years and years beyond four digits are outside the form's bounds and are not modelled.
- Mixins.PythonInt: Python's `int()` also reads non-ASCII decimal digits, such as U+0660 ARABIC-INDIC DIGIT ZERO; the model reads ASCII digits only and answers no value for those.
- Mixins.YearFilterOf: the gate checks only the first four characters, so a parameter such as `1999` followed by U+0660 passes it. Python's `int()` reads 19990 there and the source filters by that year; the model answers `ConversionError`.
- Mixins.Tokenize: requires a query without a line break, to avoid the differences between `$` and `.` around `\n` in Python's regular expressions.
- Mixins.TokenizePieces: covers terms separated by runs of spaces, and words in which no `category:` or `tag:` starts. A category starting inside a word is emitted before the rest of the word, and a quote glued to a word overtakes it; `Mixins.CategoryInsideWord` and `Mixins.QuoteOvertakesWord` cover those cases. A tab or other non-space character between words is not a separator but an ordinary character of one term; `Mixins.ScanChar` covers that one step at a time.
- `filter` passes the query through Django's `escape` before lexing it (writlarge/main/mixins.py:179). The lexer is modelled on the text `_tokenize` receives; the escaping is not modelled. Through `filter`, a typed `"` arrives as `&quot;`, so the quoted-phrase alternative only fires for direct callers of `_tokenize`.
- `ExtendedDateWrapper._validate_python_date` (writlarge/main/utils.py:110-114) is identical to the one in models.py and is modelled once, as `Models.ValidatePythonDate`. The wrapper's `get_*` accessors and `__init__` are the fields of `Utils.Side`.
- Django glue is not modelled: the ORM, querysets (`_process_query`, the database exclusions in `_process_years`), views, serializers, admin, middleware, URLs, settings and template tags.
- `get_client_ip`, `sanitize`, `validate_integer` (Django's `escape` and the request plumbing), place geometry and all JavaScript are not modelled.

## Findings

| source | as written | input that shows it | evidently intended | confidence | as-written member | corrected member |
|---|---|---|---|---|---|---|
| writlarge/main/forms.py:29-31 | `clean` builds the date before it validates anything, and `to_edtf` formats a missing month with `{:0>2d}`, which raises `TypeError` for `None` | only `day1` filled in, with 5 | reject the form with "Please specify a valid date" | not executed | Forms.DayAloneCrashesClean | Forms.CleanCheckedAgrees |
| writlarge/main/models.py:100-105 | a second `except AttributeError` on the same `try` can never run, and `edtf.lower_strict()` inside the first handler raises again when the library did not read the stored string, so `start()` raises instead of returning `None` | an empty single-date form, stored as `unknown` | `start()` returns `None`, and `clean` answers "Please specify a valid date" | not executed; assumes the library does not read `unknown`, as writlarge/main/utils.py:89 does | Forms.EmptySingleCrashesClean | Forms.CleanCheckedAgrees |
| writlarge/main/utils.py:156 | `n / 10 % 10 != 1` uses float division, so the teens take `st`, `nd`, `rd` | 11 gives `11st` | integer division, giving `11th` | not executed | Utils.OrdinalAsWrittenEleven | Utils.OrdinalSuffix |

=== FILE: common.dfy ===
/**
 * Small building blocks shared by the EDTF modules: an Option type, the
 * decimal text of integers (Python's `'{}'.format(n)` and `int(s)`),
 * prefixes, substring search, and Python's notion of whitespace.
 */
module Common {

  datatype Option<+T> = None | Some(value: T)

  /** The digit character for 0..9. */
  function DigitChar(d: int): (c: char)
    requires 0 <= d <= 9
    ensures '0' <= c <= '9'
    ensures c as int - '0' as int == d
  {
    (d + '0' as int) as char
  }

  predicate IsDigit(c: char) {
    '0' <= c <= '9'
  }

  predicate AllDigits(s: string) {
    forall i :: 0 <= i < |s| ==> IsDigit(s[i])
  }

  /** Decimal text of a natural number, most significant digit first, no leading zeros. */
  function NatToString(n: nat): (s: string)
    ensures |s| >= 1 && AllDigits(s)
    ensures n < 10 <==> |s| == 1
    decreases n
  {
    if n < 10 then [DigitChar(n)] else NatToString(n / 10) + [DigitChar(n % 10)]
  }

  /** Python's `str(n)` for an integer: a minus sign before negative numbers. */
  function IntToString(n: int): (s: string)
  {
    if n < 0 then "-" + NatToString(-n) else NatToString(n)
  }

  /** Python's `int(s)` on a string of ASCII digits (leading zeros allowed). */
  function DigitsValue(s: string): (n: nat)
    requires AllDigits(s)
    decreases |s|
  {
    if |s| == 0 then 0
    else DigitsValue(s[..|s| - 1]) * 10 + (s[|s| - 1] as int - '0' as int)
  }

  /** Reading the decimal text of a number gives the number back. */
  lemma {:induction false} DigitsValueOfNatToString(n: nat)
    ensures DigitsValue(NatToString(n)) == n
    decreases n
  {
    var s := NatToString(n);
    if n >= 10 {
      DigitsValueOfNatToString(n / 10);
      assert s[..|s| - 1] == NatToString(n / 10);
    }
  }

  /** A leading zero does not change the value read by `int()`. */
  lemma {:induction false} DigitsValueLeadingZero(s: string)
    requires AllDigits(s)
    ensures AllDigits("0" + s) && DigitsValue("0" + s) == DigitsValue(s)
    decreases |s|
  {
    if |s| > 0 {
      var t := "0" + s;
      assert t[..|t| - 1] == "0" + s[..|s| - 1];
      DigitsValueLeadingZero(s[..|s| - 1]);
    }
  }

  /** The value of four digits, place by place. */
  lemma {:induction false} DigitsValueFour(c: string)
    requires |c| == 4 && AllDigits(c)
    ensures DigitsValue(c) == 1000 * (c[0] as int - '0' as int) + 100 * (c[1] as int - '0' as int)
      + 10 * (c[2] as int - '0' as int) + (c[3] as int - '0' as int)
  {
    var d := (i: int) requires 0 <= i < 4 => c[i] as int - '0' as int;
    assert c[..3][..2] == c[..2] && c[..2][..1] == c[..1] && c[..1][..0] == [];
    assert DigitsValue(c[..1]) == d(0);
    assert DigitsValue(c[..2]) == 10 * d(0) + d(1);
    assert DigitsValue(c[..3]) == 100 * d(0) + 10 * d(1) + d(2);
    assert c[..4] == c;
  }

  /** Python's `'{:0>2d}'.format(n)`: pad the decimal text on the left with '0' to width 2. */
  function PadTwo(n: int): (s: string)
    ensures |s| >= 2
    ensures |IntToString(n)| >= 2 ==> s == IntToString(n)
  {
    var t := IntToString(n);
    if |t| < 2 then "0" + t else t
  }

  /** For 0..99 the padded text is exactly two digits and `int()` reads it back. */
  lemma PadTwoValue(n: int)
    requires 0 <= n <= 99
    ensures |PadTwo(n)| == 2 && AllDigits(PadTwo(n)) && DigitsValue(PadTwo(n)) == n
  {
    DigitsValueOfNatToString(n);
    if n < 10 { DigitsValueLeadingZero(NatToString(n)); }
  }

  predicate HasPrefix(s: string, p: string) {
    |p| <= |s| && s[..|p|] == p
  }

  /** Python's `sub in s`. */
  predicate Contains(s: string, sub: string) {
    exists i :: 0 <= i <= |s| && HasPrefix(s[i..], sub)
  }

  /** A string none of whose characters is the first character of `sub` does not contain `sub`. */
  lemma NotContainsWithoutFirstChar(s: string, sub: string)
    requires |sub| > 0
    requires forall i :: 0 <= i < |s| ==> s[i] != sub[0]
    ensures !Contains(s, sub)
  {
    forall i | 0 <= i <= |s|
      ensures !HasPrefix(s[i..], sub)
    {
      if i < |s| {
        assert s[i..][0] == s[i];
      }
    }
  }

  /** The first position of `c` in `s`, if any. */
  function IndexOf(s: string, c: char): (r: Option<nat>)
    ensures r.None? <==> c !in s
    ensures r.Some? ==> r.value < |s| && s[r.value] == c && c !in s[..r.value]
    decreases |s|
  {
    if |s| == 0 then None
    else if s[0] == c then Some(0)
    else
      var rest := IndexOf(s[1..], c);
      if rest.None? then
        assert forall x :: x in s ==> x == s[0] || x in s[1..];
        None
      else
        assert s[..rest.value + 1] == [s[0]] + s[1..][..rest.value];
        Some(rest.value + 1)
  }

  /** A position holding `c` with no `c` before it is the first one. */
  lemma IndexOfFirst(s: string, c: char, k: nat)
    requires k < |s| && s[k] == c && c !in s[..k]
    ensures IndexOf(s, c) == Some(k)
  {
  }

  /** The characters for which Python's `str.isspace()` holds; both `\s` and `strip()` use this set. */
  predicate IsWhitespace(c: char) {
    || c == ' ' || c == '\t' || c == '\n' || c == '\r' || c == '\U{000B}' || c == '\U{000C}'
    || ('\U{001C}' <= c <= '\U{001F}') || c == '\U{0085}' || c == '\U{00A0}' || c == '\U{1680}'
    || ('\U{2000}' <= c <= '\U{200A}') || c == '\U{2028}' || c == '\U{2029}' || c == '\U{202F}'
    || c == '\U{205F}' || c == '\U{3000}'
  }

  function TrimLeft(s: string): (r: string)
    ensures |r| <= |s| && r == s[|s| - |r|..]
    ensures |r| > 0 ==> !IsWhitespace(r[0])
    ensures forall i :: 0 <= i < |s| - |r| ==> IsWhitespace(s[i])
    decreases |s|
  {
    if |s| > 0 && IsWhitespace(s[0]) then TrimLeft(s[1..]) else s
  }

  function TrimRight(s: string): (r: string)
    ensures |r| <= |s| && r == s[..|r|]
    ensures |r| > 0 ==> !IsWhitespace(r[|r| - 1])
    ensures forall i :: |r| <= i < |s| ==> IsWhitespace(s[i])
    decreases |s|
  {
    if |s| > 0 && IsWhitespace(s[|s| - 1]) then TrimRight(s[..|s| - 1]) else s
  }

  /** Python's `str.strip()` with no argument. */
  function Strip(s: string): string {
    TrimRight(TrimLeft(s))
  }

  predicate NoWhitespace(s: string) {
    forall i :: 0 <= i < |s| ==> !IsWhitespace(s[i])
  }

  /** Stripping a value that holds no whitespace, followed by at most one whitespace character, gives the value. */
  lemma StripWord(v: string, tail: string)
    requires NoWhitespace(v)
    requires |tail| <= 1 && (|tail| == 1 ==> IsWhitespace(tail[0]))
    ensures Strip(v + tail) == v
  {
    if |v| == 0 {
      assert v + tail == tail;
    } else {
      assert TrimLeft(v + tail) == v + tail;
      if |tail| == 1 {
        assert (v + tail)[..|v + tail| - 1] == v;
        assert IsWhitespace((v + tail)[|v + tail| - 1]);
        assert TrimRight(v + tail) == TrimRight(v);
        assert !IsWhitespace(v[|v| - 1]);
      } else {
        assert v + tail == v;
      }
    }
  }
}

=== FILE: forms.dfy ===
/**
 * The multi-part date form (writlarge/main/forms.py): the bounds of its
 * integer fields, the order in which `clean` rejects a date, and the
 * flattening of the error dictionary into one line of HTML.
 *
 * The display text, whether the date library reads the stored string,
 * the start and end dates it computes, and today's date are inputs.
 */
module Forms {
  import opened Common
  import opened Models

  /* ---------- the fields ---------- */

  predicate Between(v: Option<int>, lo: int, hi: int) {
    v.Some? ==> lo <= v.value <= hi
  }

  /** The bounds of the integer fields of one side; every field is optional. */
  predicate InBounds(f: DateFields) {
    && Between(f.millenium, 1, 2) && Between(f.century, 0, 9)
    && Between(f.decade, 0, 9) && Between(f.year, 0, 9)
    && Between(f.month, 1, 12) && Between(f.day, 1, 31)
  }

  /**
   * A side the form stores as a readable date: within the bounds, encodable
   * (`to_edtf` raises for a day without a month), and no tier missing below
   * its finest one.
   */
  predicate FormValid(f: DateFields) {
    InBounds(f) && !DayWithoutMonth(f) && !HasGap(f)
  }

  /**
   * Within the bounds every present tier prints as one digit, so the
   * stored string holds the text `None` exactly when a tier is missing
   * below the finest one.
   */
  lemma {:induction false} BoundedSideNone(f: DateFields)
    requires InBounds(f) && !DayWithoutMonth(f)
    ensures Contains(ToEdtf(f), "None") <==> !FormValid(f)
  {
    ToEdtfNoneIffGap(f);
  }

  /* ---------- clean ---------- */

  const ValidDate := "Please specify a valid date"
  const NotFuture := "The date must be today or earlier"
  const ValidStart := "Please specify a valid start date"
  const ValidEnd := "Please specify a valid end date"
  const AllNotFuture := "All dates must be today or earlier"
  const StartBeforeEnd := "The start date must be earlier than the end date."

  /**
   * `get_start_date`/`get_end_date`: the library's date, or nothing when it
   * raised `ValueError` (`raw` is `None`) or answered with its overflow year.
   */
  function LibraryDate(raw: Option<Date>): (r: Option<Date>)
    ensures r.Some? <==> raw.Some? && raw.value.year != MaxYear
    ensures r.Some? ==> r == raw
  {
    if raw.Some? then ValidatePythonDate(raw.value) else None
  }

  /** `_set_errors` for a single date: a missing date first, then a date after today. */
  function SingleDateError(start: Option<Date>, today: Date): (r: Option<string>)
    ensures r == Some(ValidDate) <==> start.None?
    ensures r == Some(NotFuture) <==> start.Some? && After(start.value, today)
    ensures r.None? <==> start.Some? && !After(start.value, today)
  {
    if start.None? then Some(ValidDate)
    else if After(start.value, today) then Some(NotFuture)
    else None
  }

  /**
   * `_set_errors_is_range`: the first failing check of start missing,
   * end missing, either after today, start after end sets the one error.
   */
  function RangeError(start: Option<Date>, end: Option<Date>, today: Date): (r: Option<string>)
    ensures r == Some(ValidStart) <==> start.None?
    ensures r == Some(ValidEnd) <==> start.Some? && end.None?
    ensures r == Some(AllNotFuture) <==>
      start.Some? && end.Some? && (After(start.value, today) || After(end.value, today))
    ensures r == Some(StartBeforeEnd) <==>
      start.Some? && end.Some? && !After(start.value, today) && !After(end.value, today)
      && After(start.value, end.value)
  {
    if start.None? then Some(ValidStart)
    else if end.None? then Some(ValidEnd)
    else if After(start.value, today) || After(end.value, today) then Some(AllNotFuture)
    else if After(start.value, end.value) then Some(StartBeforeEnd)
    else None
  }

  /** Dates ordered as Python compares them: year, then month, then day. */
  predicate NotAfter(a: Date, b: Date) {
    !After(a, b)
  }

  /** A range passes exactly when both dates exist and start <= end <= today. */
  lemma {:induction false} RangeAccepted(start: Option<Date>, end: Option<Date>, today: Date)
    ensures RangeError(start, end, today).None? <==>
      start.Some? && end.Some? && NotAfter(start.value, end.value) && NotAfter(end.value, today)
  {
    if start.Some? && end.Some? && NotAfter(start.value, end.value) && NotAfter(end.value, today) {
      NotAfterTransitive(start.value, end.value, today);
    }
  }

  lemma {:induction false} NotAfterTransitive(a: Date, b: Date, c: Date)
    requires NotAfter(a, b) && NotAfter(b, c)
    ensures NotAfter(a, c)
  {
  }

  /**
   * `clean`: a display text mentioning `invalid` or `None` is rejected as
   * an invalid date before any date is compared; otherwise the single-date
   * or range checks decide.
   */
  function CleanError(display: string, isRange: bool, start: Option<Date>, end: Option<Date>, today: Date): (r: Option<string>)
    ensures Contains(display, "invalid") || Contains(display, "None") ==> r == Some(ValidDate)
    ensures !Contains(display, "invalid") && !Contains(display, "None") ==>
      r == (if isRange then RangeError(start, end, today) else SingleDateError(start, today))
    ensures r == Some(ValidDate) <==>
      Contains(display, "invalid") || Contains(display, "None") || (!isRange && start.None?)
    ensures isRange && r.Some? && r != Some(ValidDate) ==>
      r.value in {ValidStart, ValidEnd, AllNotFuture, StartBeforeEnd}
    ensures !isRange && r.Some? ==> r.value in {ValidDate, NotFuture}
  {
    if Contains(display, "invalid") || Contains(display, "None") then Some(ValidDate)
    else if isRange then RangeError(start, end, today)
    else SingleDateError(start, today)
  }

  /** What `clean` does with a form: raise, or finish with at most one error message. */
  datatype CleanOutcome = Raises | Finishes(error: Option<string>)

  /** The display text passes the `invalid`/`None` test, so `clean` goes on to `_set_errors`. */
  predicate CleanDisplay(display: string) {
    !Contains(display, "invalid") && !Contains(display, "None")
  }

  /**
   * `clean` as written. Building the extended date raises `TypeError`,
   * before any message is set, when a side it reads has a day but no month.
   * Past the display test, `_set_errors` calls `start()`; when the library
   * does not read the stored string (`parsed` false), `start()` calls a
   * method on `None`, and the `AttributeError` escapes, since the second
   * handler in models.py can never run and `get_start_date` catches only
   * `ValueError`.
   */
  function CleanAsWritten(values: map<string, FormValue>, display: string, parsed: bool,
                          start: Option<Date>, end: Option<Date>, today: Date): (r: CleanOutcome)
    requires WellTyped(values)
    ensures r.Raises? <==> !Encodable(values) || (!parsed && CleanDisplay(display))
    ensures r.Finishes? ==> r.error == CleanError(display, IsRange(values), start, end, today)
  {
    if FromDictChecked(values).None? then Raises
    else if !parsed && CleanDisplay(display) then Raises
    else Finishes(CleanError(display, IsRange(values), start, end, today))
  }

  /** A form with only a day filled in, within the day field's bounds, crashes `clean`. */
  lemma {:induction false} DayAloneCrashesClean(day: int, display: string, parsed: bool,
                                                start: Option<Date>, end: Option<Date>, today: Date)
    requires 1 <= day <= 31
    ensures WellTyped(map["day1" := Num(day)])
    ensures CleanAsWritten(map["day1" := Num(day)], display, parsed, start, end, today).Raises?
  {
    DayAloneRaises(day);
  }

  /**
   * An empty single-date form is stored as `unknown` and shows as nothing,
   * so it passes the display test; as the library does not read `unknown`,
   * `start()` then crashes `clean`.
   */
  lemma {:induction false} EmptySingleCrashesClean(values: map<string, FormValue>, rendered: string,
                                                   start: Option<Date>, end: Option<Date>, today: Date)
    requires WellTyped(values) && !IsRange(values) && AllAbsent(SideFields(values, "1"))
    ensures Encodable(values) && FromDict(values) == "unknown"
    ensures CleanAsWritten(values, DisplayText(FromDict(values), rendered), false, start, end, today).Raises?
  {
    EmptyFormDisplaysNothing(values, rendered);
    assert DisplayText(FromDict(values), rendered) == "";
  }

  /**
   * `clean` as evidently intended: a side with a day but no month is
   * rejected like an unreadable date, with the invalid-date message, and a
   * stored string the library does not read has no start or end date, as
   * the unreachable `return None` in `start()` means; everything else is
   * checked as before.
   */
  function CleanChecked(values: map<string, FormValue>, display: string, parsed: bool,
                        start: Option<Date>, end: Option<Date>, today: Date): (r: Option<string>)
    requires WellTyped(values)
    ensures r.None? ==> Encodable(values) && parsed
  {
    if !Encodable(values) then Some(ValidDate)
    else if !parsed then CleanError(display, IsRange(values), None, None, today)
    else CleanError(display, IsRange(values), start, end, today)
  }

  /**
   * The corrected `clean` never raises. Where the written one raises it
   * answers an invalid-date message: the start-date one for an unread
   * range, the general one otherwise. Everywhere else the two agree.
   */
  lemma {:induction false} CleanCheckedAgrees(values: map<string, FormValue>, display: string, parsed: bool,
                                              start: Option<Date>, end: Option<Date>, today: Date)
    requires WellTyped(values)
    ensures var w := CleanAsWritten(values, display, parsed, start, end, today);
      var c := CleanChecked(values, display, parsed, start, end, today);
      && (w.Raises? ==> c == Some(if Encodable(values) && IsRange(values) then ValidStart else ValidDate))
      && (w.Finishes? ==> c == w.error)
  {
  }

  /** A readable single date that is not in the future passes; a readable range with start <= end <= today passes. */
  lemma {:induction false} CleanAccepts(display: string, isRange: bool, start: Option<Date>, end: Option<Date>, today: Date)
    ensures CleanError(display, isRange, start, end, today).None? <==>
      && !Contains(display, "invalid") && !Contains(display, "None")
      && start.Some?
      && (if isRange then end.Some? && NotAfter(start.value, end.value) && NotAfter(end.value, today)
          else NotAfter(start.value, today))
  {
    RangeAccepted(start, end, today);
  }

  /* ---------- get_error_messages ---------- */

  /** The key Django uses for errors that belong to the whole form. */
  const NonFieldKey := "__all__"

  /** One line of the message: the field name (not for the whole form), the first message, a break. */
  function ErrorLine(key: string, messages: seq<string>): string
    requires |messages| > 0
  {
    (if key != NonFieldKey then key + ": " else "") + messages[0] + "<br />"
  }

  predicate AllNonEmpty(errors: seq<(string, seq<string>)>) {
    forall i :: 0 <= i < |errors| ==> |errors[i].1| > 0
  }

  /** The lines of the errors, in the dictionary's order. */
  function Lines(errors: seq<(string, seq<string>)>): string
    requires AllNonEmpty(errors)
  {
    if |errors| == 0 then ""
    else Lines(errors[..|errors| - 1]) + ErrorLine(errors[|errors| - 1].0, errors[|errors| - 1].1)
  }

  /** `get_error_messages`, with the field errors as a list of key and messages in the dictionary's order. */
  method GetErrorMessages(errors: seq<(string, seq<string>)>) returns (msg: string)
    requires AllNonEmpty(errors)
    ensures msg == Lines(errors)
    ensures |errors| == 0 <==> msg == ""
  {
    msg := "";
    var i := 0;
    while i < |errors|
      invariant 0 <= i <= |errors|
      invariant msg == Lines(errors[..i])
      invariant i > 0 ==> |msg| > 0
    {
      var entry := errors[i];
      if entry.0 != NonFieldKey {
        msg := msg + entry.0 + ": ";
      }
      msg := msg + entry.1[0];
      msg := msg + "<br />";
      assert errors[..i + 1][..i] == errors[..i];
      i := i + 1;
    }
    assert errors[..i] == errors;
  }

  /** The message of several errors is the messages of each, one after another. */
  lemma {:induction false} LinesAppend(a: seq<(string, seq<string>)>, b: seq<(string, seq<string>)>)
    requires AllNonEmpty(a) && AllNonEmpty(b)
    ensures AllNonEmpty(a + b) && Lines(a + b) == Lines(a) + Lines(b)
    decreases |b|
  {
    if |b| > 0 {
      var b0 := b[..|b| - 1];
      LinesAppend(a, b0);
      assert (a + b)[..|a + b| - 1] == a + b0;
    } else {
      assert a + b == a;
    }
  }

  /** A single error of the whole form is its first message followed by a break, with no key. */
  lemma {:induction false} NonFieldError(messages: seq<string>)
    requires |messages| > 0
    ensures Lines([(NonFieldKey, messages)]) == messages[0] + "<br />"
  {
    assert [(NonFieldKey, messages)][..0] == [];
  }
}

=== FILE: grammar.dfy ===
/**
 * A reference reading of the EDTF Level 1 strings the encoder writes: the
 * `unknown` and `open` markers, a year code whose wildcards form a
 * trailing run, optional two-digit month and day, the `?` and `~`
 * qualifiers in that order, and `/` between the sides of a range.
 *
 * The date library that the application calls is not part of this model;
 * this reader plays its part for the strings the form can produce, and
 * ties the encoder (module Models) to the display text and the form
 * fields (module Utils).
 */
module Grammar {
  import opened Common
  import opened Models
  import opened Utils
  import opened Forms

  /** A position of the year code: the digit, or the wildcard for an absent tier. */
  function Position(v: Option<int>): char
    requires Between(v, 0, 9)
  {
    if v.Some? then DigitChar(v.value) else 'u'
  }

  /** The four-position year code a form-valid side stands for. */
  function YearCode(f: DateFields): string
    requires InBounds(f)
  {
    [Position(f.millenium), Position(f.century), Position(f.decade), Position(f.year)]
  }

  function Padded(v: Option<int>): Option<string> {
    if v.Some? then Some(PadTwo(v.value)) else None
  }

  /** A padded month or day is a two-digit code. */
  lemma {:induction false} PaddedCode(v: Option<int>)
    requires Between(v, 0, 99)
    ensures Padded(v).Some? ==> CodeText(Padded(v).value, 2) && AllDigits(Padded(v).value)
  {
    if v.Some? { PadTwoValue(v.value); }
  }

  /** The side a form-valid set of fields denotes, as the display code sees it. */
  function Expected(f: DateFields): (s: Side)
    requires FormValid(f)
    ensures WellFormed(s)
    ensures s.Sentinel? <==> AllAbsent(f)
  {
    if AllAbsent(f) then Sentinel(UnknownModifier)
    else
      PaddedCode(f.month);
      PaddedCode(f.day);
      var precision := if f.day.Some? then DayPrecision
                       else if f.month.Some? then MonthPrecision
                       else YearPrecision;
      Dated(YearCode(f), Padded(f.month), Padded(f.day), precision, f.uncertain, f.approximate)
  }

  /* ---------- the reader ---------- */

  /** Digits followed by a (possibly empty) run of wildcards, starting with a digit. */
  predicate TrailingWildcards(c: string) {
    && |c| > 0 && IsDigit(c[0])
    && (forall i :: 0 <= i < |c| ==> CodeChar(c[i]))
    && (forall i, j :: 0 <= i < j < |c| && c[i] == 'u' ==> c[j] == 'u')
  }

  /** A side without its qualifiers: `YYYY` (wildcards allowed), `YYYY-MM` or `YYYY-MM-DD`. */
  function DecodeCore(c: string, uncertain: bool, approximate: bool): (r: Option<Side>)
    ensures r.Some? ==> r.value.Dated? && WellFormed(r.value)
  {
    if |c| == 4 && TrailingWildcards(c) then
      Some(Dated(c, None, None, YearPrecision, uncertain, approximate))
    else if |c| == 7 && AllDigits(c[..4]) && c[4] == '-' && AllDigits(c[5..]) then
      Some(Dated(c[..4], Some(c[5..]), None, MonthPrecision, uncertain, approximate))
    else if |c| == 10 && AllDigits(c[..4]) && c[4] == '-' && AllDigits(c[5..7])
         && c[7] == '-' && AllDigits(c[8..]) then
      Some(Dated(c[..4], Some(c[5..7]), Some(c[8..]), DayPrecision, uncertain, approximate))
    else None
  }

  /** One side of a stored value: a marker, or a core followed by `?` and then `~`. */
  function Decode(s: string): (r: Option<Side>)
    ensures r.Some? ==> WellFormed(r.value)
    ensures r.Some? && r.value.Sentinel? ==> s == ModifierText(r.value.modifier)
    ensures r.Some? && r.value.Dated? ==> |s| >= 4 && (r.value.approximate <==> s[|s| - 1] == '~')
  {
    if s == "unknown" then Some(Sentinel(UnknownModifier))
    else if s == "open" then Some(Sentinel(OpenModifier))
    else
      var approximate := |s| > 0 && s[|s| - 1] == '~';
      var s1 := if approximate then s[..|s| - 1] else s;
      var uncertain := |s1| > 0 && s1[|s1| - 1] == '?';
      var core := if uncertain then s1[..|s1| - 1] else s1;
      var r := DecodeCore(core, uncertain, approximate);
      assert r.Some? ==> |core| >= 4;
      r
  }

  /** A whole stored value: one side, or two sides around the first `/`. */
  function DecodeValue(s: string): Option<ParseResult> {
    match IndexOf(s, '/')
    case None =>
      var d := Decode(s);
      if d.Some? then Some(Single(d.value)) else None
    case Some(k) =>
      var lower := Decode(s[..k]);
      var upper := Decode(s[k + 1..]);
      if lower.Some? && upper.Some? then Some(Interval(lower.value, upper.value)) else None
  }

  /* ---------- the encoder's output reads back ---------- */

  lemma {:induction false} FieldTextDigit(v: Option<int>)
    requires v.Some? && 0 <= v.value <= 9
    ensures FieldText(v) == [Position(v)]
  {
  }

  /** The printed tiers of a form-valid side are the year code's digits. */
  lemma {:induction false} CodePartIsYearCode(f: DateFields)
    requires FormValid(f) && !AllAbsent(f)
    ensures 1 <= PrintedDigits(f) <= 4
    ensures CodePart(f, PrintedDigits(f)) == YearCode(f)[..PrintedDigits(f)]
    ensures AllDigits(YearCode(f)[..PrintedDigits(f)])
    ensures forall i :: PrintedDigits(f) <= i < 4 ==> YearCode(f)[i] == 'u'
  {
    var k := PrintedDigits(f);
    var y := YearCode(f);
    FieldTextDigit(f.millenium);
    if k >= 2 { FieldTextDigit(f.century); }
    if k >= 3 { FieldTextDigit(f.decade); }
    if k >= 4 { FieldTextDigit(f.year); }
    if k == 1 {
      assert y[..1] == [y[0]];
    } else if k == 2 {
      assert y[..2] == [y[0], y[1]];
    } else if k == 3 {
      assert y[..3] == [y[0], y[1], y[2]];
    } else {
      assert y[..4] == y;
    }
  }

  /** The digits branch of a form-valid side is read as the side it stands for, with the given qualifiers. */
  lemma {:induction false} DecodeUnqualified(f: DateFields)
    requires FormValid(f) && !AllAbsent(f)
    ensures DecodeCore(Unqualified(f), f.uncertain, f.approximate) == Some(Expected(f))
  {
    UnqualifiedParts(f);
    CodePartIsYearCode(f);
    var k := PrintedDigits(f);
    var y := YearCode(f);
    var c := Unqualified(f);
    if f.month.Some? {
      assert k == 4 && y[..4] == y;
      PadTwoValue(f.month.value);
      var mm := PadTwo(f.month.value);
      if f.day.Some? {
        PadTwoValue(f.day.value);
        var dd := PadTwo(f.day.value);
        assert c == y + "-" + mm + "-" + dd;
        assert c[..4] == y && c[5..7] == mm && c[8..] == dd;
      } else {
        assert c == y + "-" + mm;
        assert c[..4] == y && c[5..] == mm;
      }
    } else {
      assert c == y by {
        if k == 4 {
          assert y[..4] == y;
          assert Tail(f) == "";
        } else if k == 3 {
          assert y == y[..3] + "u";
        } else if k == 2 {
          assert y == y[..2] + "uu";
        } else {
          assert y == y[..1] + "uuu";
        }
      }
      assert TrailingWildcards(c) by {
        forall i, j | 0 <= i < j < |c| && c[i] == 'u' ensures c[j] == 'u' {
          assert i >= k;
        }
      }
    }
  }

  /**
   * Round trip of a form-valid side: reading the stored string gives back
   * the side the fields stand for. Wildcards form a trailing run of the
   * year code, month and day are two digits, and the qualifiers are read
   * from the suffix; an empty side reads as the `unknown` marker, its
   * qualifiers dropped.
   */
  lemma {:induction false} DecodeToEdtf(f: DateFields)
    requires FormValid(f)
    ensures Decode(ToEdtf(f)) == Some(Expected(f))
  {
    if !AllAbsent(f) {
      var dt := Unqualified(f);
      UnqualifiedEnds(f);
      FieldTextDigit(f.millenium);
      DecodeQualified(dt, f.uncertain, f.approximate);
      DecodeUnqualified(f);
    }
  }

  /** The reader strips `~` and then `?` from the end of a side that starts with a digit, and reads the rest. */
  lemma {:induction false} DecodeQualified(dt: string, uncertain: bool, approximate: bool)
    requires |dt| >= 4 && IsDigit(dt[0]) && dt[|dt| - 1] != '?' && dt[|dt| - 1] != '~'
    ensures Decode(AppendApproximate(AppendUncertain(dt, uncertain), approximate)) == DecodeCore(dt, uncertain, approximate)
  {
    var s1 := AppendUncertain(dt, uncertain);
    var s := AppendApproximate(s1, approximate);
    assert s[0] == dt[0];
    assert s != "unknown" && s != "open";
    if approximate {
      assert s[..|s| - 1] == s1;
    }
    if uncertain {
      assert s1[..|s1| - 1] == dt;
    }
  }

  /** Two encoded sides joined by `/` read as the range of the two. */
  lemma {:induction false} DecodeJoined(f1: DateFields, f2: DateFields)
    requires FormValid(f1) && FormValid(f2)
    ensures DecodeValue(ToEdtf(f1) + "/" + ToEdtf(f2)) == Some(Interval(Expected(f1), Expected(f2)))
  {
    var a, b := ToEdtf(f1), ToEdtf(f2);
    var s := a + "/" + b;
    DecodeToEdtf(f1);
    DecodeToEdtf(f2);
    NoSlashInSide(f1);
    assert s[..|a|] == a && s[|a|] == '/' && s[|a| + 1..] == b;
    IndexOfFirst(s, '/', |a|);
  }

  /** Round trip of a whole form: the stored value reads as one side, or as the range of the two sides. */
  lemma {:induction false} DecodeFromDict(values: map<string, FormValue>)
    requires Encodable(values)
    requires FormValid(SideFields(values, "1"))
    requires IsRange(values) ==> FormValid(SideFields(values, "2"))
    ensures !IsRange(values) ==>
      DecodeValue(FromDict(values)) == Some(Single(Expected(SideFields(values, "1"))))
    ensures IsRange(values) ==>
      DecodeValue(FromDict(values)) == Some(Interval(Expected(SideFields(values, "1")), Expected(SideFields(values, "2"))))
  {
    var s := FromDict(values);
    var f1 := SideFields(values, "1");
    if IsRange(values) {
      var f2 := SideFields(values, "2");
      var k :| 0 <= k < |s| && s[k] == '/' && s[..k] == ToEdtf(f1) && s[k + 1..] == ToEdtf(f2);
      assert s == s[..k] + "/" + s[k + 1..];
      DecodeJoined(f1, f2);
    } else {
      DecodeToEdtf(f1);
      NoSlashInSide(f1);
    }
  }

  /* ---------- back to the form ---------- */

  function Lookup(d: map<string, DictValue>, key: string): DictValue {
    if key in d then d[key] else DNone
  }

  /** Django's integer field reading a text: digits give a number, anything else nothing. */
  function ReadNumber(v: DictValue): Option<int> {
    if v.DText? && |v.text| > 0 && AllDigits(v.text) then Some(DigitsValue(v.text)) else None
  }

  function ReadFlag(v: DictValue): bool {
    v.DFlag? && v.flag
  }

  /** The fields an edit form shows for the dictionary of side `o`. */
  function ReadBack(d: map<string, DictValue>, o: string): DateFields {
    DateFields(
      ReadNumber(Lookup(d, "millenium" + o)), ReadNumber(Lookup(d, "century" + o)),
      ReadNumber(Lookup(d, "decade" + o)), ReadNumber(Lookup(d, "year" + o)),
      ReadNumber(Lookup(d, "month" + o)), ReadNumber(Lookup(d, "day" + o)),
      ReadFlag(Lookup(d, "approximate" + o)), ReadFlag(Lookup(d, "uncertain" + o)))
  }

  /** What survives a round trip: an empty side loses its qualifiers. */
  function Normalize(f: DateFields): DateFields {
    if AllAbsent(f) then DateFields(None, None, None, None, None, None, false, false) else f
  }

  lemma {:induction false} SingleDigitValue(c: char)
    requires IsDigit(c)
    ensures AllDigits([c]) && DigitsValue([c]) == c as int - '0' as int
  {
    assert [c][..0] == [];
  }

  lemma {:induction false} ReadPosition(v: Option<int>)
    requires Between(v, 0, 9)
    ensures ReadNumber(CodeDigit(Position(v))) == v
  {
    if v.Some? {
      SingleDigitValue(Position(v));
    }
  }

  lemma {:induction false} ReadPadded(v: Option<int>)
    requires Between(v, 0, 99)
    ensures ReadNumber(OptionText(Padded(v))) == v
  {
    if v.Some? { PadTwoValue(v.value); }
  }

  /** Each field of the dictionary a dated side gives, looked up by name. */
  lemma {:induction false} DictEntries(s: Side, ordinal: int)
    requires s.Dated? && WellFormed(s)
    ensures var d := ToDict(s, ordinal); var o := IntToString(ordinal);
      && Lookup(d, "millenium" + o) == DText([s.year[0]])
      && Lookup(d, "century" + o) == CodeDigit(s.year[1])
      && Lookup(d, "decade" + o) == CodeDigit(s.year[2])
      && Lookup(d, "year" + o) == CodeDigit(s.year[3])
      && Lookup(d, "month" + o) == OptionText(s.month)
      && Lookup(d, "day" + o) == OptionText(s.day)
      && Lookup(d, "approximate" + o) == DFlag(s.approximate)
      && Lookup(d, "uncertain" + o) == DFlag(s.uncertain)
  {
    var o := IntToString(ordinal);
    assert ("uncertain" + o)[0] != ("millenium" + o)[0];
  }

  /** The fields read back from a dated side. */
  lemma {:induction false} ReadBackDated(s: Side, ordinal: int)
    requires s.Dated? && WellFormed(s) && s.year[0] != 'u'
    ensures ReadBack(ToDict(s, ordinal), IntToString(ordinal)) == DateFields(
      ReadNumber(CodeDigit(s.year[0])), ReadNumber(CodeDigit(s.year[1])),
      ReadNumber(CodeDigit(s.year[2])), ReadNumber(CodeDigit(s.year[3])),
      ReadNumber(OptionText(s.month)), ReadNumber(OptionText(s.day)),
      s.approximate, s.uncertain)
  {
    DictEntries(s, ordinal);
  }

  /**
   * Editing a stored value: the stored string of a form-valid side, read
   * and turned back into form fields, gives the fields that were entered
   * (an empty side comes back empty, without qualifiers).
   */
  lemma {:induction false} FormRoundTrip(f: DateFields, ordinal: int)
    requires FormValid(f)
    ensures ReadBack(ToDict(Expected(f), ordinal), IntToString(ordinal)) == Normalize(f)
  {
    if !AllAbsent(f) {
      var s := Expected(f);
      ReadBackDated(s, ordinal);
      ReadPosition(f.millenium);
      ReadPosition(f.century);
      ReadPosition(f.decade);
      ReadPosition(f.year);
      ReadPadded(f.month);
      ReadPadded(f.day);
    }
  }

  /* ---------- the display text of a form-valid side ---------- */

  /** The year a full code stands for, or the earliest year of a partial one. */
  function EarliestYear(f: DateFields): nat
    requires InBounds(f)
  {
    var t := (v: Option<int>) requires Between(v, 0, 9) => if v.Some? then v.value else 0;
    1000 * t(f.millenium) + 100 * t(f.century) + 10 * t(f.decade) + t(f.year)
  }

  /**
   * The English reading of a form-valid side, by its finest tier: the
   * millennium as `2nd millenium` or `3rd millenium`, a century or a decade
   * as its first year followed by `s`, a year as a number, a month as its
   * name and the year code, a day as `<Month> <dd>, <code>`.
   */
  function Describe(f: DateFields): string
    requires FormValid(f) && !AllAbsent(f)
  {
    if f.day.Some? then
      MonthNames[f.month.value - 1] + " " + PadTwo(f.day.value) + ", " + YearCode(f)
    else if f.month.Some? then
      MonthNames[f.month.value - 1] + " " + YearCode(f)
    else if f.year.Some? then NatToString(EarliestYear(f))
    else if f.decade.Some? || f.century.Some? then NatToString(EarliestYear(f)) + "s"
    else NatToString(f.millenium.value + 1) + (if f.millenium.value == 1 then "nd" else "rd") + " millenium"
  }

  /** `c. ` in front for an approximate side, `?` behind for an uncertain one. */
  function Qualified(t: string, uncertain: bool, approximate: bool): string {
    (if approximate then "c. " else "") + t + (if uncertain then "?" else "")
  }

  /** The earliest reading of the year code is the year the fields give, absent tiers as zero. */
  lemma {:induction false} PreciseYearOfCode(f: DateFields)
    requires InBounds(f)
    ensures PreciseYear(YearCode(f)) == EarliestYear(f)
  {
    var y := YearCode(f);
    var digits := seq(|y|, i requires 0 <= i < |y| => if y[i] == 'u' then '0' else y[i]);
    DigitsValueFour(digits);
  }

  lemma {:induction false} MonthNameOf(m: int)
    requires 1 <= m <= 12
    ensures CodeText(PadTwo(m), 2) && FmtMonth(PadTwo(m)) == MonthNames[m - 1]
  {
    PadTwoValue(m);
  }

  /** At year precision the year code takes the branch of its finest tier. */
  lemma {:induction false} FmtYearOfFields(f: DateFields)
    requires FormValid(f) && !AllAbsent(f) && f.month.None?
    ensures FmtYear(YearCode(f)) == Describe(f)
  {
    PreciseYearOfCode(f);
    if f.year.Some? {
      YearTierFull(f);
    } else if f.decade.Some? {
      YearTierDecade(f);
    } else if f.century.Some? {
      YearTierCentury(f);
    } else {
      YearTierMillenium(f);
    }
  }

  lemma {:induction false} YearTierFull(f: DateFields)
    requires FormValid(f) && f.year.Some? && f.month.None?
    requires PreciseYear(YearCode(f)) == EarliestYear(f)
    ensures FmtYear(YearCode(f)) == Describe(f)
  {
    var y := YearCode(f);
    assert y[3] != 'u' && y[2..][1] == y[3] && y[1..][2] == y[3];
    assert !MilleniumCode(y) && !CenturyCode(y) && !DecadeCode(y);
  }

  lemma {:induction false} YearTierDecade(f: DateFields)
    requires FormValid(f) && f.year.None? && f.decade.Some? && f.month.None?
    requires PreciseYear(YearCode(f)) == EarliestYear(f)
    ensures FmtYear(YearCode(f)) == Describe(f)
  {
    var y := YearCode(f);
    assert y[2] != 'u' && y[2..][0] == y[2] && y[1..][1] == y[2];
    assert !MilleniumCode(y) && !CenturyCode(y) && DecadeCode(y);
  }

  lemma {:induction false} YearTierCentury(f: DateFields)
    requires FormValid(f) && f.year.None? && f.decade.None? && f.century.Some? && f.month.None?
    requires PreciseYear(YearCode(f)) == EarliestYear(f)
    ensures FmtYear(YearCode(f)) == Describe(f)
  {
    var y := YearCode(f);
    assert y[1] != 'u' && y[1..][0] == y[1];
    assert y[2..] == "uu";
    assert !MilleniumCode(y) && CenturyCode(y);
  }

  lemma {:induction false} YearTierMillenium(f: DateFields)
    requires FormValid(f) && !AllAbsent(f) && f.year.None? && f.decade.None? && f.century.None? && f.month.None?
    ensures FmtYear(YearCode(f)) == Describe(f)
  {
    var y := YearCode(f);
    var d := f.millenium.value;
    assert y[1..] == "uuu";
    assert MilleniumCode(y);
    assert y[0] as int - '0' as int == d;
    assert FmtYear(y) == FmtMillenium(d);
    SecondAndThird();
    OrdinalsAgreeOutsideTeens(d + 1);
    assert OrdinalAsWritten(d + 1) == NatToString(d + 1) + (if d == 1 then "nd" else "rd");
  }

  lemma {:induction false} SecondAndThird()
    ensures Ordinal(2) == "2nd" && Ordinal(3) == "3rd"
  {
    OrdinalSuffix(2);
    OrdinalSuffix(3);
  }

  /** The precision text of a form-valid side is its English reading. */
  lemma {:induction false} FmtPrecisionOfFields(f: DateFields)
    requires FormValid(f) && !AllAbsent(f)
    ensures Expected(f).Dated? && FmtPrecision(Expected(f)) == Describe(f)
  {
    if f.month.Some? {
      FmtPrecisionOfMonth(f);
    } else {
      FmtPrecisionOfYear(f);
    }
  }

  lemma {:induction false} FmtPrecisionOfMonth(f: DateFields)
    requires FormValid(f) && f.month.Some?
    ensures Expected(f).Dated? && FmtPrecision(Expected(f)) == Describe(f)
  {
    MonthNameOf(f.month.value);
    if f.day.Some? {
      FmtPrecisionOfDay(f);
    }
  }

  lemma {:induction false} FmtPrecisionOfDay(f: DateFields)
    requires FormValid(f) && f.month.Some? && f.day.Some?
    requires CodeText(PadTwo(f.month.value), 2) && FmtMonth(PadTwo(f.month.value)) == MonthNames[f.month.value - 1]
    ensures Expected(f).Dated? && FmtPrecision(Expected(f)) == Describe(f)
  {
  }

  lemma {:induction false} FmtPrecisionOfYear(f: DateFields)
    requires FormValid(f) && !AllAbsent(f) && f.month.None?
    ensures Expected(f).Dated? && FmtPrecision(Expected(f)) == Describe(f)
  {
    FmtYearOfFields(f);
  }

  /**
   * The display text of a form-valid side is its English reading with the
   * qualifiers; an empty side shows as `?`.
   */
  lemma {:induction false} DisplayOfFields(f: DateFields)
    requires FormValid(f)
    ensures AllAbsent(f) ==> Format(Expected(f)) == "?"
    ensures !AllAbsent(f) ==> Format(Expected(f)) == Qualified(Describe(f), f.uncertain, f.approximate)
  {
    if !AllAbsent(f) {
      FmtPrecisionOfFields(f);
      FormatDated(Expected(f), Describe(f));
    }
  }

  /** The display text of a dated side is its precision text with the qualifiers. */
  lemma {:induction false} FormatDated(s: Side, t: string)
    requires s.Dated? && WellFormed(s) && FmtPrecision(s) == t
    ensures Format(s) == Qualified(t, s.uncertain, s.approximate)
  {
    var u := if s.uncertain then t + "?" else t;
    assert Format(s) == if s.approximate then "c. " + u else u;
    if s.approximate && s.uncertain {
      assert "c. " + (t + "?") == "c. " + t + "?";
    } else if s.approximate {
      assert "c. " + t == "c. " + t + "";
    } else if s.uncertain {
      assert t + "?" == "" + t + "?";
    } else {
      assert t == "" + t + "";
    }
  }

  /** The fourteen-hundreds entered at century precision. */
  const CenturyFourteen := DateFields(Some(1), Some(4), None, None, None, None, false, false)

  /** The first decade of the fourteen-hundreds entered at decade precision. */
  const DecadeFourteenHundred := DateFields(Some(1), Some(4), Some(0), None, None, None, false, false)

  /** A century and the first decade of that century read the same: `14uu` and `140u` both show as `1400s`. */
  lemma {:induction false} CenturyAndFirstDecadeAlike()
    ensures FormValid(CenturyFourteen) && FormValid(DecadeFourteenHundred)
    ensures Expected(CenturyFourteen) != Expected(DecadeFourteenHundred)
    ensures ToEdtf(CenturyFourteen) == "14uu" && ToEdtf(DecadeFourteenHundred) == "140u"
    ensures Format(Expected(CenturyFourteen)) == "1400s" && Format(Expected(DecadeFourteenHundred)) == "1400s"
  {
    ReadsAsFourteenHundreds(CenturyFourteen);
    ReadsAsFourteenHundreds(DecadeFourteenHundred);
    assert Expected(CenturyFourteen).year[2] != Expected(DecadeFourteenHundred).year[2];
  }

  /** Both entries read as the fourteen-hundreds. */
  lemma {:induction false} ReadsAsFourteenHundreds(f: DateFields)
    requires f == CenturyFourteen || f == DecadeFourteenHundred
    ensures FormValid(f) && Format(Expected(f)) == "1400s"
  {
    assert FormValid(f) && !AllAbsent(f);
    DisplayOfFields(f);
    assert EarliestYear(f) == 1400;
    FourteenHundredText();
    assert Describe(f) == "1400s";
    assert Qualified("1400s", false, false) == "1400s";
  }

  lemma {:induction false} FourteenHundredText()
    ensures NatToString(1400) == "1400"
  {
    assert NatToString(1) == "1";
    assert NatToString(14) == "14";
    assert NatToString(140) == "140";
  }
}

=== FILE: mixins.dfy ===
/**
 * The search side of the learning-site list (writlarge/main/mixins.py):
 * the lexer that splits a query into plain, category and tag terms, the
 * test that drops a site whose known years lie outside the requested
 * span, and the gate that decides whether the year filter applies.
 *
 * The lexer follows Python's `re.finditer` over the alternation
 * STRING | CATEGORY | TAG | SPACE | CHARACTER | END: at every position the
 * first alternative that matches wins, so the scan is a recursion over the
 * rest of the query and a pending plain term.
 */
module Mixins {
  import opened Common

  datatype Token = Str(value: string) | Category(value: string) | Tag(value: string)

  /* ---------- the lexer ---------- */

  /** The first position of a whitespace character (Python's `\s`), if any. */
  function FirstWhitespace(s: string): (r: Option<nat>)
    ensures r.None? <==> NoWhitespace(s)
    ensures r.Some? ==> r.value < |s| && IsWhitespace(s[r.value]) && NoWhitespace(s[..r.value])
    decreases |s|
  {
    if |s| == 0 then None
    else if IsWhitespace(s[0]) then Some(0)
    else
      var rest := FirstWhitespace(s[1..]);
      if rest.None? then
        assert forall i :: 1 <= i < |s| ==> s[i] == s[1..][i - 1];
        None
      else
        assert forall i :: 1 <= i <= rest.value ==> s[i] == s[1..][..rest.value][i - 1];
        Some(rest.value + 1)
  }

  /** The length of the run of blanks (`[ ]+`, the space character only) that starts `s`. */
  function SpaceRun(s: string): (n: nat)
    ensures n <= |s|
    ensures forall i :: 0 <= i < n ==> s[i] == ' '
    ensures n < |s| ==> s[n] != ' '
    ensures |s| > 0 && s[0] == ' ' ==> n >= 1
    decreases |s|
  {
    if |s| > 0 && s[0] == ' ' then 1 + SpaceRun(s[1..]) else 0
  }

  /**
   * `<kw>.*?($|\s)` at the start of `rest`: the keyword, the shortest text
   * after it that reaches a whitespace character or the end, and that
   * whitespace character.
   */
  function KeywordLength(rest: string, kw: string): (n: nat)
    requires HasPrefix(rest, kw)
    ensures |kw| <= n <= |rest|
    ensures NoWhitespace(rest[|kw|..]) ==> n == |rest|
    ensures !NoWhitespace(rest[|kw|..]) ==> |kw| < n && IsWhitespace(rest[n - 1]) && NoWhitespace(rest[|kw|..n - 1])
  {
    match FirstWhitespace(rest[|kw|..])
    case None => |rest|
    case Some(j) =>
      assert rest[|kw|..][..j] == rest[|kw|..|kw| + j];
      |kw| + j + 1
  }

  const CategoryPrefix := "category:"
  const TagPrefix := "tag:"

  /** The alternatives of the lexer, in the order they are tried. */
  datatype Kind = StringKind | CategoryKind | TagKind | SpaceKind | CharacterKind | EndKind

  /** The alternative that matched and the text it matched. */
  datatype Match = Match(kind: Kind, text: string)

  /**
   * The alternation at the start of `rest`: `"(.*?)"`, `category:.*?($|\s)`,
   * `tag:.*?($|\s)`, `[ ]+`, `.` and `$`, the first that matches winning.
   * A quote needs a closing quote, otherwise it is an ordinary character.
   */
  function NextMatch(rest: string): (m: Match)
    ensures HasPrefix(rest, m.text)
    ensures m.kind == EndKind <==> |rest| == 0
    ensures m.kind != EndKind ==> |m.text| > 0
    ensures m.kind == StringKind ==>
      |m.text| >= 2 && m.text[0] == '"' && m.text[|m.text| - 1] == '"' && '"' !in m.text[1..|m.text| - 1]
    ensures m.kind == CategoryKind ==> HasPrefix(m.text, CategoryPrefix)
    ensures m.kind == TagKind ==> HasPrefix(m.text, TagPrefix)
    ensures m.kind == SpaceKind ==> forall i :: 0 <= i < |m.text| ==> m.text[i] == ' '
    ensures m.kind == CharacterKind ==> |m.text| == 1
  {
    if |rest| == 0 then Match(EndKind, "")
    else if rest[0] == '"' && IndexOf(rest[1..], '"').Some? then
      var k := IndexOf(rest[1..], '"').value;
      assert rest[..k + 2][1..k + 1] == rest[1..][..k];
      Match(StringKind, rest[..k + 2])
    else if HasPrefix(rest, CategoryPrefix) then
      Match(CategoryKind, rest[..KeywordLength(rest, CategoryPrefix)])
    else if HasPrefix(rest, TagPrefix) then
      Match(TagKind, rest[..KeywordLength(rest, TagPrefix)])
    else if rest[0] == ' ' then
      Match(SpaceKind, rest[..SpaceRun(rest)])
    else
      Match(CharacterKind, rest[..1])
  }

  /** The pending plain term, emitted when it is not empty. */
  function Flush(term: string): seq<Token> {
    if |term| > 0 then [Str(term)] else []
  }

  /**
   * The loop of `_tokenize` over the matches of the rest of the query,
   * given the plain term collected so far: characters extend the term, a
   * run of blanks or the end emits it, a quoted string, category or tag is
   * emitted at once.
   */
  function Scan(rest: string, term: string): (r: seq<Token>)
    ensures |term| > 0 ==> |r| > 0
    decreases |rest|
  {
    var m := NextMatch(rest);
    match m.kind
    case EndKind => Flush(term)
    case CharacterKind => Scan(rest[|m.text|..], term + m.text)
    case SpaceKind => Flush(term) + Scan(rest[|m.text|..], "")
    case StringKind => [Str(m.text[1..|m.text| - 1])] + Scan(rest[|m.text|..], term)
    case CategoryKind => [Category(Strip(m.text[|CategoryPrefix|..]))] + Scan(rest[|m.text|..], term)
    case TagKind => [Tag(Strip(m.text[|TagPrefix|..]))] + Scan(rest[|m.text|..], term)
  }

  /** `_tokenize`: the tokens of a query that holds no line break. */
  function Tokenize(q: string): (r: seq<Token>)
    requires '\n' !in q
    ensures |q| == 0 ==> r == []
  {
    Scan(q, "")
  }

  /* ---------- one step of the scan ---------- */

  /** A text whose first character differs from the first of `p` does not start with `p`. */
  lemma {:induction false} NotPrefix(s: string, p: string)
    requires |s| > 0 && |p| > 0 && s[0] != p[0]
    ensures !HasPrefix(s, p)
  {
    if |p| <= |s| {
      assert s[..|p|][0] == s[0];
    }
  }

  /** A position where no quote, keyword or blank starts is an ordinary character. */
  lemma {:induction false} ScanChar(rest: string, term: string)
    requires |rest| > 0 && rest[0] != '"' && rest[0] != ' '
    requires !HasPrefix(rest, CategoryPrefix) && !HasPrefix(rest, TagPrefix)
    ensures Scan(rest, term) == Scan(rest[1..], term + [rest[0]])
  {
    assert NextMatch(rest) == Match(CharacterKind, rest[..1]);
    assert rest[..1] == [rest[0]];
  }

  /** A quote with a closing quote after it is a string token of the text between them. */
  lemma {:induction false} ScanQuote(rest: string, term: string, k: nat)
    requires |rest| > 0 && rest[0] == '"' && IndexOf(rest[1..], '"') == Some(k)
    ensures Scan(rest, term) == [Str(rest[1..k + 1])] + Scan(rest[k + 2..], term)
  {
    var m := NextMatch(rest);
    assert m == Match(StringKind, rest[..k + 2]);
    assert m.text[1..|m.text| - 1] == rest[1..k + 1];
  }

  /** A category or tag keyword is emitted with the text up to the first whitespace, stripped. */
  lemma {:induction false} ScanKeywordStep(rest: string, term: string, kw: string)
    requires kw == CategoryPrefix || kw == TagPrefix
    requires HasPrefix(rest, kw)
    ensures var n := KeywordLength(rest, kw);
      Scan(rest, term) == [if kw == CategoryPrefix then Category(Strip(rest[|kw|..n])) else Tag(Strip(rest[|kw|..n]))]
        + Scan(rest[n..], term)
  {
    var n := KeywordLength(rest, kw);
    var m := NextMatch(rest);
    NotPrefix(rest, "\"");
    if kw == CategoryPrefix {
      assert m == Match(CategoryKind, rest[..n]);
    } else {
      NotPrefix(rest, CategoryPrefix);
      assert m == Match(TagKind, rest[..n]);
    }
    assert rest[..n][|kw|..] == rest[|kw|..n];
  }

  /** A run of blanks, whatever its length, emits the pending term once and starts an empty one. */
  lemma {:induction false} ScanBlank(rest: string, term: string)
    requires |rest| > 0 && rest[0] == ' '
    ensures Scan(rest, term) == Flush(term) + Scan(rest[SpaceRun(rest)..], "")
  {
    NotPrefix(rest, CategoryPrefix);
    NotPrefix(rest, TagPrefix);
    assert NextMatch(rest) == Match(SpaceKind, rest[..SpaceRun(rest)]);
  }

  /** `n` blanks. */
  function Blanks(n: nat): (s: string)
    ensures |s| == n && forall i :: 0 <= i < n ==> s[i] == ' '
  {
    seq(n, _ => ' ')
  }

  /** Exactly `k` blanks followed by a non-blank or the end make a run of length `k`. */
  lemma {:induction false} SpaceRunOf(x: string, k: nat)
    requires k <= |x| && (forall i :: 0 <= i < k ==> x[i] == ' ') && (k < |x| ==> x[k] != ' ')
    ensures SpaceRun(x) == k
  {
  }

  /** Blanks in front of the query emit nothing. */
  lemma {:induction false} SkipLead(lead: nat, s: string)
    requires |s| == 0 || s[0] != ' '
    ensures Scan(Blanks(lead) + s, "") == Scan(s, "")
  {
    var x := Blanks(lead) + s;
    if lead > 0 {
      SpaceRunOf(x, lead);
      ScanBlank(x, "");
      assert x[lead..] == s;
    } else {
      assert x == s;
    }
  }

  /** The end emits the pending term. */
  lemma {:induction false} ScanEnd(term: string)
    ensures Scan("", term) == Flush(term)
  {
  }

  /* ---------- what the lexer promises ---------- */

  /** A character that starts neither a quote nor a blank, and is not a line break. */
  predicate PlainChar(c: char) {
    c != '"' && c != ' ' && c != '\n'
  }

  /** No `category:` or `tag:` starts anywhere in the text. */
  predicate NoKeyword(w: string)
    decreases |w|
  {
    |w| == 0 || (!HasPrefix(w, CategoryPrefix) && !HasPrefix(w, TagPrefix) && NoKeyword(w[1..]))
  }

  /** Text the lexer reads character by character: colons are allowed, whole keywords are not. */
  predicate PlainText(w: string) {
    (forall i :: 0 <= i < |w| ==> PlainChar(w[i])) && NoKeyword(w)
  }

  /** What can follow plain text without completing a keyword: the end, a blank or a quote. */
  predicate Boundary(tail: string) {
    |tail| == 0 || tail[0] == ' ' || tail[0] == '"'
  }

  /** A keyword ending in `:` cannot start inside plain text followed by a boundary. */
  lemma {:induction false} NoKeywordInPlain(w: string, tail: string, kw: string)
    requires PlainText(w) && Boundary(tail)
    requires kw == CategoryPrefix || kw == TagPrefix
    ensures !HasPrefix(w + tail, kw)
  {
    if |w| >= |kw| {
      assert (w + tail)[..|kw|] == w[..|kw|];
    } else if |tail| > 0 {
      assert (w + tail)[|w|] == tail[0];
    }
  }

  /** What follows the first character of plain text is plain text. */
  lemma {:induction false} PlainRest(w: string)
    requires |w| > 0 && PlainText(w)
    ensures PlainText(w[1..])
  {
    assert forall i :: 0 <= i < |w| - 1 ==> w[1..][i] == w[i + 1];
  }

  /** Plain characters are collected into the pending term, one by one. */
  lemma {:induction false} ScanPlain(w: string, tail: string, term: string)
    requires PlainText(w) && Boundary(tail)
    ensures Scan(w + tail, term) == Scan(tail, term + w)
    decreases |w|
  {
    if |w| > 0 {
      PlainStep(w, tail, term);
      PlainRest(w);
      ScanPlain(w[1..], tail, term + [w[0]]);
      MoveFirst(term, w);
    } else {
      assert w + tail == tail && term + w == term;
    }
  }

  /** Moving the first character of a text onto the end of another keeps their concatenation. */
  lemma {:induction false} MoveFirst(term: string, w: string)
    requires |w| > 0
    ensures term + [w[0]] + w[1..] == term + w
  {
    assert [w[0]] + w[1..] == w;
  }

  /** The first plain character joins the pending term. */
  lemma {:induction false} PlainStep(w: string, tail: string, term: string)
    requires |w| > 0 && PlainText(w) && Boundary(tail)
    ensures Scan(w + tail, term) == Scan(w[1..] + tail, term + [w[0]])
  {
    var rest := w + tail;
    NoKeywordInPlain(w, tail, CategoryPrefix);
    NoKeywordInPlain(w, tail, TagPrefix);
    assert rest[0] == w[0];
    ScanChar(rest, term);
    assert rest[1..] == w[1..] + tail;
  }

  /** One term of a query as a user writes it. */
  datatype Piece = Word(text: string) | Quoted(text: string) | CategoryTerm(text: string) | TagTerm(text: string)

  /** Words are plain text (colons allowed, no keyword starting inside) and not empty; quotes hold no quote; category and tag values hold no whitespace. */
  predicate WellFormedPiece(p: Piece) {
    match p
    case Word(w) => |w| > 0 && PlainText(w)
    case Quoted(q) => '"' !in q && '\n' !in q
    case CategoryTerm(v) => NoWhitespace(v)
    case TagTerm(v) => NoWhitespace(v)
  }

  function Render(p: Piece): string {
    match p
    case Word(w) => w
    case Quoted(q) => "\"" + q + "\""
    case CategoryTerm(v) => CategoryPrefix + v
    case TagTerm(v) => TagPrefix + v
  }

  /** The token a user means by a piece. */
  function Meaning(p: Piece): Token {
    match p
    case Word(w) => Str(w)
    case Quoted(q) => Str(q)
    case CategoryTerm(v) => Category(v)
    case TagTerm(v) => Tag(v)
  }

  /**
   * The blanks after each piece: `gaps[i]` blanks follow piece `i`, at
   * least one between two pieces, any number after the last.
   */
  predicate Spacing(ps: seq<Piece>, gaps: seq<nat>) {
    |gaps| == |ps| && forall i :: 0 <= i < |gaps| - 1 ==> gaps[i] >= 1
  }

  /** The pieces, each followed by its run of blanks. */
  function Join(ps: seq<Piece>, gaps: seq<nat>): string
    requires |gaps| == |ps|
    decreases |ps|
  {
    if |ps| == 0 then "" else Render(ps[0]) + (Blanks(gaps[0]) + Join(ps[1..], gaps[1..]))
  }

  function Meanings(ps: seq<Piece>): seq<Token>
    decreases |ps|
  {
    if |ps| == 0 then [] else [Meaning(ps[0])] + Meanings(ps[1..])
  }

  /** What may follow a piece: the end, or a blank. */
  predicate Gap(tail: string) {
    |tail| == 0 || tail[0] == ' '
  }

  /** The rest of `tail` after the run of blanks it starts with. */
  function Skip(tail: string): string {
    tail[SpaceRun(tail)..]
  }

  function AfterBlank(tail: string): string {
    if |tail| == 0 then "" else tail[1..]
  }

  /** In a value without whitespace followed by a single blank, the blank is the first whitespace. */
  lemma {:induction false} FirstWhitespaceAfter(v: string, tail: string)
    requires NoWhitespace(v) && Gap(tail)
    ensures |tail| == 0 ==> NoWhitespace(v + tail)
    ensures |tail| > 0 ==> FirstWhitespace(v + tail) == Some(|v|)
  {
    if |tail| == 0 {
      assert v + tail == v;
    } else {
      var s := v + tail;
      assert s[|v|] == ' ' && IsWhitespace(s[|v|]);
    }
  }

  /** A category or tag term followed by a single blank or the end yields its value and swallows the blank. */
  lemma {:induction false} ScanKeyword(kw: string, v: string, tail: string, term: string)
    requires kw == CategoryPrefix || kw == TagPrefix
    requires NoWhitespace(v) && Gap(tail)
    ensures Scan(kw + v + tail, term) == [if kw == CategoryPrefix then Category(v) else Tag(v)] + Scan(AfterBlank(tail), term)
  {
    var rest := kw + v + tail;
    var cut := if |tail| == 0 then 0 else 1;
    KeywordCut(kw, v, tail);
    StripWord(v, tail[..cut]);
    ScanKeywordStep(rest, term, kw);
  }

  /** Where the keyword match of a value and a single blank ends, and what it covers. */
  lemma {:induction false} KeywordCut(kw: string, v: string, tail: string)
    requires NoWhitespace(v) && Gap(tail)
    ensures HasPrefix(kw + v + tail, kw)
    ensures var n := KeywordLength(kw + v + tail, kw);
      var cut := if |tail| == 0 then 0 else 1;
      |tail| >= cut && (kw + v + tail)[|kw|..n] == v + tail[..cut] && (kw + v + tail)[n..] == AfterBlank(tail)
  {
    var rest := kw + v + tail;
    assert rest[..|kw|] == kw;
    assert rest[|kw|..] == v + tail;
    FirstWhitespaceAfter(v, tail);
    var n := KeywordLength(rest, kw);
    var cut := if |tail| == 0 then 0 else 1;
    assert n == |kw| + |v| + cut;
    assert rest[|kw|..n] == v + tail[..cut];
    assert rest[n..] == AfterBlank(tail);
  }

  /** A word followed by a run of blanks (or the end) is emitted at that run. */
  lemma {:induction false} ScanWord(w: string, tail: string)
    requires |w| > 0 && PlainText(w) && Gap(tail)
    ensures Scan(w + tail, "") == [Str(w)] + Scan(Skip(tail), "")
  {
    ScanPlain(w, tail, "");
    assert "" + w == w;
    if |tail| > 0 {
      ScanBlank(tail, w);
    } else {
      ScanEnd(w);
      ScanEnd("");
    }
  }

  /** A quoted text followed by a run of blanks (or the end) is emitted without its quotes. */
  lemma {:induction false} ScanQuoted(q: string, tail: string)
    requires '"' !in q && Gap(tail)
    ensures Scan("\"" + q + "\"" + tail, "") == [Str(q)] + Scan(Skip(tail), "")
  {
    var rest := "\"" + q + "\"" + tail;
    ClosingQuote(rest, q, tail);
    ScanQuote(rest, "", |q|);
    SkipBlanks(tail);
  }

  /** With no pending term, a run of blanks emits nothing. */
  lemma {:induction false} SkipBlanks(tail: string)
    requires Gap(tail)
    ensures Scan(tail, "") == Scan(Skip(tail), "")
  {
    if |tail| > 0 {
      var n := SpaceRun(tail);
      ScanBlank(tail, "");
      assert Scan(tail, "") == [] + Scan(tail[n..], "");
    }
  }

  /** The closing quote of `"q"` is the first quote after the opening one. */
  lemma {:induction false} ClosingQuote(rest: string, q: string, tail: string)
    requires '"' !in q && rest == "\"" + q + "\"" + tail
    ensures |rest| > 0 && rest[0] == '"' && IndexOf(rest[1..], '"') == Some(|q|)
    ensures rest[1..|q| + 1] == q && rest[|q| + 2..] == tail
  {
    assert rest[1..] == q + "\"" + tail;
    assert rest[1..][|q|] == '"' && rest[1..][..|q|] == q;
    IndexOfFirst(rest[1..], '"', |q|);
  }

  /** One piece followed by a run of blanks (or the end) yields its token and leaves the rest to scan. */
  lemma {:induction false} ScanPiece(p: Piece, tail: string)
    requires WellFormedPiece(p) && Gap(tail)
    ensures Scan(Render(p) + tail, "") == [Meaning(p)] + Scan(Skip(tail), "")
  {
    match p
    case Word(w) => ScanWord(w, tail);
    case Quoted(q) => ScanQuoted(q, tail);
    case CategoryTerm(v) =>
      ScanKeyword(CategoryPrefix, v, tail, "");
      SkipAfterFirst(tail);
    case TagTerm(v) =>
      ScanKeyword(TagPrefix, v, tail, "");
      SkipAfterFirst(tail);
  }

  /** After the blank a keyword match takes, the rest of the run emits nothing. */
  lemma {:induction false} SkipAfterFirst(tail: string)
    requires Gap(tail)
    ensures Scan(AfterBlank(tail), "") == Scan(Skip(tail), "")
  {
    if |tail| > 0 {
      var t := tail[1..];
      assert SpaceRun(tail) == 1 + SpaceRun(t);
      if |t| > 0 && t[0] == ' ' {
        ScanBlank(t, "");
        assert t[SpaceRun(t)..] == Skip(tail);
      } else {
        assert Skip(tail) == t;
      }
    }
  }

  /** A piece never starts with a blank. */
  lemma {:induction false} RenderStart(p: Piece)
    requires WellFormedPiece(p)
    ensures |Render(p)| > 0 && Render(p)[0] != ' '
  {
  }

  /**
   * A query of terms separated by runs of blanks, with any number of
   * blanks before the first and after the last, comes back as the tokens
   * the terms stand for, strictly left to right: plain words as strings,
   * quoted text without its quotes, `category:` and `tag:` terms with the
   * prefix removed.
   */
  lemma {:induction false} TokenizePieces(lead: nat, ps: seq<Piece>, gaps: seq<nat>)
    requires forall i :: 0 <= i < |ps| ==> WellFormedPiece(ps[i])
    requires Spacing(ps, gaps)
    ensures var q := Blanks(lead) + Join(ps, gaps);
      && Scan(q, "") == Meanings(ps)
      && ('\n' !in q ==> Tokenize(q) == Meanings(ps))
  {
    JoinStart(ps, gaps);
    SkipLead(lead, Join(ps, gaps));
    ScanJoin(ps, gaps);
  }

  /** The joined pieces, scanned from an empty term, give the pieces' meanings. */
  lemma {:induction false} ScanJoin(ps: seq<Piece>, gaps: seq<nat>)
    requires forall i :: 0 <= i < |ps| ==> WellFormedPiece(ps[i])
    requires Spacing(ps, gaps)
    ensures Scan(Join(ps, gaps), "") == Meanings(ps)
    decreases |ps|
  {
    if |ps| > 0 {
      var more := Join(ps[1..], gaps[1..]);
      assert Spacing(ps[1..], gaps[1..]) by {
        forall i | 0 <= i < |gaps[1..]| - 1
          ensures gaps[1..][i] >= 1
        {
          assert gaps[1..][i] == gaps[i + 1];
        }
      }
      ScanJoin(ps[1..], gaps[1..]);
      JoinStart(ps[1..], gaps[1..]);
      if gaps[0] == 0 {
        assert |ps| == 1;
      }
      BlanksThen(gaps[0], more);
      ScanPiece(ps[0], Blanks(gaps[0]) + more);
    }
  }

  /** Joined pieces never start with a blank. */
  lemma {:induction false} JoinStart(ps: seq<Piece>, gaps: seq<nat>)
    requires forall i :: 0 <= i < |ps| ==> WellFormedPiece(ps[i])
    requires |gaps| == |ps|
    ensures |Join(ps, gaps)| == 0 || Join(ps, gaps)[0] != ' '
  {
    if |ps| > 0 {
      RenderStart(ps[0]);
      var j := Join(ps, gaps);
      assert j == Render(ps[0]) + (Blanks(gaps[0]) + Join(ps[1..], gaps[1..]));
      assert j[0] == Render(ps[0])[0];
    }
  }

  /** A run of `n` blanks before text that does not start with a blank may follow a piece, and skipping it gives that text. */
  lemma {:induction false} BlanksThen(n: nat, more: string)
    requires |more| == 0 || more[0] != ' '
    requires n == 0 ==> |more| == 0
    ensures Gap(Blanks(n) + more) && Skip(Blanks(n) + more) == more
  {
    var x := Blanks(n) + more;
    SpaceRunOf(x, n);
    assert x[n..] == more;
  }

  /**
   * A category can start in the middle of a word: the category is emitted
   * first and the two halves of the word join into one plain term.
   */
  lemma {:induction false} CategoryInsideWord(x: char, v: string, w: string)
    requires PlainChar(x) && x != 'c' && x != 't'
    requires NoWhitespace(v) && |w| > 0 && PlainText(w)
    ensures Scan([x] + (CategoryPrefix + v + (" " + w)), "") == [Category(v), Str([x] + w)]
  {
    var rest := CategoryPrefix + v + (" " + w);
    ScanCharCons(x, rest, "");
    assert "" + [x] == [x];
    ScanKeyword(CategoryPrefix, v, " " + w, [x]);
    assert AfterBlank(" " + w) == w;
    PlainAtEnd(w, [x]);
    assert Flush([x] + w) == [Str([x] + w)];
  }

  /** An ordinary character in front of the rest joins the pending term. */
  lemma {:induction false} ScanCharCons(c: char, rest: string, term: string)
    requires c != '"' && c != ' ' && c != CategoryPrefix[0] && c != TagPrefix[0]
    ensures Scan([c] + rest, term) == Scan(rest, term + [c])
  {
    var s := [c] + rest;
    NotPrefix(s, CategoryPrefix);
    NotPrefix(s, TagPrefix);
    ScanChar(s, term);
    assert s[1..] == rest;
  }

  /** Plain text at the end of the query joins the pending term. */
  lemma {:induction false} PlainAtEnd(w: string, term: string)
    requires PlainText(w)
    ensures Scan(w, term) == Flush(term + w)
  {
    ScanPlain(w, "", term);
    assert w + "" == w;
    ScanEnd(term + w);
  }

  /** A quoted string right after a word is emitted before that word. */
  lemma {:induction false} QuoteOvertakesWord(w: string, q: string)
    requires |w| > 0 && PlainText(w) && '"' !in q
    ensures Scan(w + ("\"" + q + "\""), "") == [Str(q), Str(w)]
  {
    ScanPlain(w, "\"" + q + "\"", "");
    assert "" + w == w;
    QuoteAtEnd(q, w);
  }

  /** A quoted text at the end of the query is emitted before the pending term. */
  lemma {:induction false} QuoteAtEnd(q: string, term: string)
    requires '"' !in q
    ensures Scan("\"" + q + "\"", term) == [Str(q)] + Flush(term)
  {
    var r := "\"" + q + "\"";
    ClosingQuote(r, q, "");
    ScanQuote(r, term, |q|);
    ScanEnd(term);
  }

  /* ---------- the year filter ---------- */

  /** Python truthiness of an optional year: absent and 0 both count as unknown. */
  predicate Known(y: Option<int>) {
    y.Some? && y.value != 0
  }

  /** The test of `_process_years`: known earliest year after the span, or known latest year before it. */
  predicate Excluded(minYear: Option<int>, maxYear: Option<int>, start: int, end: int) {
    if Known(minYear) && minYear.value > end then true
    else Known(maxYear) && maxYear.value < start
  }

  /** With both years known and in order, a site is dropped exactly when its years miss the span. */
  lemma {:induction false} ExcludedIffDisjoint(minYear: int, maxYear: int, start: int, end: int)
    requires minYear != 0 && maxYear != 0 && minYear <= maxYear
    ensures Excluded(Some(minYear), Some(maxYear), start, end) <==> !(minYear <= end && start <= maxYear)
  {
  }

  /** A site with no known year is never dropped, and only a known year can drop it. */
  lemma {:induction false} UnknownNeverExcluded(minYear: Option<int>, maxYear: Option<int>, start: int, end: int)
    ensures !Known(minYear) && !Known(maxYear) ==> !Excluded(minYear, maxYear, start, end)
    ensures Excluded(minYear, maxYear, start, end) ==>
      (Known(minYear) && minYear.value > end) || (Known(maxYear) && maxYear.value < start)
  {
  }

  /** The year 0 reads as unknown. */
  lemma {:induction false} ZeroYearIsUnknown(maxYear: Option<int>, start: int, end: int)
    ensures Excluded(Some(0), maxYear, start, end) == Excluded(None, maxYear, start, end)
  {
  }

  datatype SiteYears = SiteYears(id: int, minYear: Option<int>, maxYear: Option<int>)

  /** The ids of the dropped sites, in the order of the sites. */
  function DroppedIds(sites: seq<SiteYears>, start: int, end: int): seq<int>
    decreases |sites|
  {
    if |sites| == 0 then []
    else
      var last := sites[|sites| - 1];
      DroppedIds(sites[..|sites| - 1], start, end)
        + (if Excluded(last.minYear, last.maxYear, start, end) then [last.id] else [])
  }

  /** An id is dropped exactly when some site with that id fails the test. */
  lemma {:induction false} DroppedIdsMembership(sites: seq<SiteYears>, start: int, end: int)
    ensures forall x :: x in DroppedIds(sites, start, end) <==>
      exists i :: 0 <= i < |sites| && sites[i].id == x && Excluded(sites[i].minYear, sites[i].maxYear, start, end)
    decreases |sites|
  {
    if |sites| > 0 {
      var init := sites[..|sites| - 1];
      DroppedIdsMembership(init, start, end);
      forall x | (exists i :: 0 <= i < |sites| && sites[i].id == x && Excluded(sites[i].minYear, sites[i].maxYear, start, end))
        ensures x in DroppedIds(sites, start, end)
      {
        var i :| 0 <= i < |sites| && sites[i].id == x && Excluded(sites[i].minYear, sites[i].maxYear, start, end);
        if i < |sites| - 1 {
          assert init[i] == sites[i];
        }
      }
      forall x | x in DroppedIds(init, start, end)
        ensures exists i :: 0 <= i < |sites| && sites[i].id == x && Excluded(sites[i].minYear, sites[i].maxYear, start, end)
      {
        var i :| 0 <= i < |init| && init[i].id == x && Excluded(init[i].minYear, init[i].maxYear, start, end);
        assert sites[i] == init[i];
      }
    }
  }

  /** The loop of `_process_years` that collects the ids to exclude. */
  method ProcessYears(sites: seq<SiteYears>, start: int, end: int) returns (ids: seq<int>)
    ensures ids == DroppedIds(sites, start, end)
    ensures forall x :: x in ids <==>
      exists i :: 0 <= i < |sites| && sites[i].id == x && Excluded(sites[i].minYear, sites[i].maxYear, start, end)
  {
    ids := [];
    var i := 0;
    while i < |sites|
      invariant 0 <= i <= |sites|
      invariant ids == DroppedIds(sites[..i], start, end)
    {
      var site := sites[i];
      if Excluded(site.minYear, site.maxYear, start, end) {
        ids := ids + [site.id];
      }
      assert sites[..i + 1][..i] == sites[..i];
      i := i + 1;
    }
    assert sites[..i] == sites;
    DroppedIdsMembership(sites, start, end);
  }

  /** `re.match(r'[1-2][0-9]{3}', s)`: anchored at the start only. */
  predicate YearPattern(s: string) {
    |s| >= 4 && '1' <= s[0] <= '2' && IsDigit(s[1]) && IsDigit(s[2]) && IsDigit(s[3])
  }

  /**
   * ASCII digits with single underscores between them, the digit part
   * `int()` accepts: a digit, then either nothing more or, after at most
   * one underscore, another such group.
   */
  predicate GroupedDigits(t: string)
    decreases |t|
  {
    && |t| > 0 && IsDigit(t[0])
    && (|t| == 1 || GroupedDigits(if t[1] == '_' then t[2..] else t[1..]))
  }

  /** The digits of a grouped digit text, in order. */
  function DropUnderscores(t: string): (d: string)
    requires GroupedDigits(t)
    ensures |d| > 0 && AllDigits(d) && d[0] == t[0]
    decreases |t|
  {
    if |t| == 1 then [t[0]]
    else [t[0]] + DropUnderscores(if t[1] == '_' then t[2..] else t[1..])
  }

  /** Stripping a text that neither starts nor ends with whitespace leaves it as it is. */
  lemma {:induction false} StripUntrimmed(t: string)
    requires |t| > 0 && !IsWhitespace(t[0]) && !IsWhitespace(t[|t| - 1])
    ensures Strip(t) == t
  {
    assert TrimLeft(t) == t;
  }

  /**
   * Python's `int()` on a text: surrounding whitespace, then an optional
   * sign, then ASCII digits with single underscores between them.
   */
  function PythonInt(s: string): (r: Option<int>)
  {
    var t := Strip(s);
    var signed := |t| > 0 && (t[0] == '-' || t[0] == '+');
    var body := if signed then t[1..] else t;
    if GroupedDigits(body) then
      var v: int := DigitsValue(DropUnderscores(body));
      Some(if signed && t[0] == '-' then -v else v)
    else None
  }

  /** Plain decimal digits read as their decimal value. */
  lemma {:induction false} PythonIntOfDigits(s: string)
    requires |s| > 0 && AllDigits(s)
    ensures PythonInt(s) == Some(DigitsValue(s))
  {
    StripUntrimmed(s);
    DropNoUnderscores(s);
  }

  /** Plain decimal digits are grouped, and there is nothing to drop. */
  lemma {:induction false} DropNoUnderscores(s: string)
    requires |s| > 0 && AllDigits(s)
    ensures GroupedDigits(s) && DropUnderscores(s) == s
    decreases |s|
  {
    if |s| > 1 {
      DropNoUnderscores(s[1..]);
      assert [s[0]] + s[1..] == s;
    }
  }

  /** A minus sign before plain decimal digits negates their value. */
  lemma {:induction false} PythonIntOfNegative(d: string)
    requires |d| > 0 && AllDigits(d)
    ensures PythonInt("-" + d) == Some(-(DigitsValue(d) as int))
  {
    var t := "-" + d;
    assert t[|t| - 1] == d[|d| - 1];
    StripUntrimmed(t);
    assert t[1..] == d;
    DropNoUnderscores(d);
    PythonIntOfMinus(t);
  }

  /** A stripped text of a minus sign and grouped digits reads as the negated digits. */
  lemma {:induction false} PythonIntOfMinus(t: string)
    requires Strip(t) == t && |t| > 1 && t[0] == '-' && GroupedDigits(t[1..])
    ensures PythonInt(t) == Some(-(DigitsValue(DropUnderscores(t[1..])) as int))
  {
  }

  /** `int(str(n)) == n` for every integer. */
  lemma {:induction false} PythonIntOfString(n: int)
    ensures PythonInt(IntToString(n)) == Some(n)
  {
    var m: nat := if n < 0 then -n else n;
    var d := NatToString(m);
    assert DigitsValue(d) == m by {
      DigitsValueOfNatToString(m);
    }
    if n < 0 {
      assert PythonInt("-" + d) == Some(n) by {
        PythonIntOfNegative(d);
      }
      assert IntToString(n) == "-" + d;
    } else {
      assert PythonInt(d) == Some(n) by {
        PythonIntOfDigits(d);
      }
      assert IntToString(n) == d;
    }
  }

  /** Underscores between digits do not change what `int()` reads. */
  lemma {:induction false} PythonIntIgnoresUnderscores(t: string)
    requires GroupedDigits(t)
    ensures PythonInt(t) == PythonInt(DropUnderscores(t))
    ensures PythonInt(t) == Some(DigitsValue(DropUnderscores(t)))
  {
    var d := DropUnderscores(t);
    assert Strip(t) == t by {
      GroupedEndsInDigit(t);
      StripUntrimmed(t);
    }
    assert PythonInt(t) == Some(DigitsValue(d));
    PythonIntOfDigits(d);
  }

  lemma {:induction false} GroupedEndsInDigit(t: string)
    requires GroupedDigits(t)
    ensures IsDigit(t[|t| - 1])
    decreases |t|
  {
    if |t| > 1 {
      var u := if t[1] == '_' then t[2..] else t[1..];
      GroupedEndsInDigit(u);
      assert u[|u| - 1] == t[|t| - 1];
    }
  }

  /** What `filter` does with the `start` and `end` parameters. */
  datatype YearFilter = NoYearFilter | YearSpan(start: int, end: int) | ConversionError

  /**
   * The year filter applies only when both parameters start with a year
   * from 1000 to 2999; a parameter that passes the pattern but has more
   * after its first four digits than `int()` accepts raises.
   */
  function YearFilterOf(start: string, end: string): (r: YearFilter)
    ensures r.NoYearFilter? <==> !(YearPattern(start) && YearPattern(end))
    ensures r.YearSpan? ==> PythonInt(start) == Some(r.start) && PythonInt(end) == Some(r.end)
    ensures r.ConversionError? <==> YearPattern(start) && YearPattern(end) && (PythonInt(start).None? || PythonInt(end).None?)
  {
    if !(YearPattern(start) && YearPattern(end)) then NoYearFilter
    else
      var a := PythonInt(start);
      var b := PythonInt(end);
      if a.Some? && b.Some? then YearSpan(a.value, b.value) else ConversionError
  }

  /** A four-digit text with a leading 1 or 2 reads as a year from 1000 to 2999. */
  lemma {:induction false} FourDigitYear(s: string)
    requires YearPattern(s) && |s| == 4
    ensures AllDigits(s) && 1000 <= DigitsValue(s) <= 2999
  {
    DigitsValueFour(s);
  }

  /** Four-digit years in both parameters filter by exactly those years. */
  lemma {:induction false} YearFilterOfFourDigits(start: string, end: string)
    requires YearPattern(start) && |start| == 4 && YearPattern(end) && |end| == 4
    ensures YearFilterOf(start, end) == YearSpan(DigitsValue(start), DigitsValue(end))
    ensures 1000 <= DigitsValue(start) <= 2999 && 1000 <= DigitsValue(end) <= 2999
  {
    FourDigitYear(start);
    FourDigitYear(end);
    PythonIntOfDigits(start);
    PythonIntOfDigits(end);
  }

  /** Digits followed by an underscore and one more digit are grouped; the underscore drops out. */
  lemma {:induction false} GroupAfterUnderscore(a: string, c: char)
    requires |a| > 0 && AllDigits(a) && IsDigit(c)
    ensures GroupedDigits(a + ['_', c]) && DropUnderscores(a + ['_', c]) == a + [c]
    decreases |a|
  {
    var t := a + ['_', c];
    if |a| == 1 {
      assert t[2..] == [c];
    } else {
      GroupAfterUnderscore(a[1..], c);
      assert t[1..] == a[1..] + ['_', c];
      assert [a[0]] + (a[1..] + [c]) == a + [c];
    }
  }

  /** Every character of a grouped digit text is a digit or an underscore. */
  lemma {:induction false} GroupedChar(t: string, i: nat)
    requires GroupedDigits(t) && i < |t|
    ensures IsDigit(t[i]) || t[i] == '_'
    decreases |t|
  {
    if i > 0 {
      if t[1] == '_' {
        if i > 1 {
          GroupedChar(t[2..], i - 2);
        }
      } else {
        GroupedChar(t[1..], i - 1);
      }
    }
  }

  /** Digits, an underscore and one more digit read as the number those digits make without the underscore. */
  lemma {:induction false} UnderscoredValue(y: string, c: char)
    requires |y| > 0 && AllDigits(y) && IsDigit(c)
    ensures PythonInt(y + ['_', c]) == Some(DigitsValue(y + [c]))
  {
    GroupAfterUnderscore(y, c);
    PythonIntIgnoresUnderscores(y + ['_', c]);
  }

  /** A gated year with one more digit is at least 10000. */
  lemma {:induction false} FiveDigitYear(y: string, c: char)
    requires YearPattern(y) && |y| == 4 && IsDigit(c)
    ensures AllDigits(y + [c]) && DigitsValue(y + [c]) >= 10000
  {
    FourDigitYear(y);
    DigitsValueAppend(y, c);
  }

  /** Appending a digit shifts the value one decimal place. */
  lemma {:induction false} DigitsValueAppend(a: string, c: char)
    requires AllDigits(a) && IsDigit(c)
    ensures DigitsValue(a + [c]) == 10 * DigitsValue(a) + (c as int - '0' as int)
  {
    assert (a + [c])[..|a|] == a;
  }

  /**
   * `int()` reads underscores between digits, so a parameter such as
   * `1999_0` passes the gate and filters by a year beyond 9999.
   */
  lemma {:induction false} UnderscoredYearFilter(y: string, c: char, e: string)
    requires YearPattern(y) && |y| == 4 && IsDigit(c) && YearPattern(e) && |e| == 4
    ensures AllDigits(y + [c]) && AllDigits(e)
    ensures YearFilterOf(y + ['_', c], e) == YearSpan(DigitsValue(y + [c]), DigitsValue(e))
    ensures DigitsValue(y + [c]) >= 10000
  {
    FiveDigitYear(y, c);
    UnderscoredValue(y, c);
    FourDigitYear(e);
    PythonIntOfDigits(e);
    assert (y + ['_', c])[..4] == y;
  }

  /**
   * A parameter that passes the gate but goes on with anything other than
   * digits or an underscore, such as `1999-01`, makes `int()` raise.
   */
  lemma {:induction false} TrailingTextRaises(y: string, rest: string, e: string)
    requires YearPattern(y) && |y| == 4 && YearPattern(e)
    requires |rest| > 0 && !IsDigit(rest[0]) && rest[0] != '_' && !IsWhitespace(rest[|rest| - 1])
    ensures YearFilterOf(y + rest, e) == ConversionError
  {
    var t := y + rest;
    assert t[|t| - 1] == rest[|rest| - 1];
    StripUntrimmed(t);
    assert t[4] == rest[0];
    if GroupedDigits(t) {
      GroupedChar(t, 4);
    }
    assert t[..4] == y;
  }
}

=== FILE: models.dfy ===
/**
 * The storage side of an extended date (writlarge/main/models.py):
 * the encoder that turns the digits of the multi-part date form into an
 * EDTF string, the dictionary front end that joins two sides into a range,
 * the empty-value short-circuit of the display text, and the guard against
 * the date library's overflow sentinel.
 */
module Models {
  import opened Common

  /**
   * One side of the multi-part form after Django's field cleaning: each
   * digit tier is an integer or absent, the two qualifiers are flags.
   */
  datatype DateFields = DateFields(
    millenium: Option<int>, century: Option<int>, decade: Option<int>, year: Option<int>,
    month: Option<int>, day: Option<int>,
    approximate: bool, uncertain: bool)

  /** Python's `'{}'.format(v)` for an optional integer: a missing value prints as `None`. */
  function FieldText(v: Option<int>): (s: string)
    ensures |s| > 0
  {
    match v
    case None => "None"
    case Some(n) => IntToString(n)
  }

  /** The uncertain qualifier is a trailing `?`. */
  function AppendUncertain(dt: string, uncertain: bool): string {
    if uncertain then dt + "?" else dt
  }

  /** The approximate qualifier is a trailing `~`. */
  function AppendApproximate(dt: string, approximate: bool): string {
    if approximate then dt + "~" else dt
  }

  predicate AllAbsent(f: DateFields) {
    && f.millenium.None? && f.century.None? && f.decade.None?
    && f.year.None? && f.month.None? && f.day.None?
  }

  /**
   * How many positions of the four-character year code are printed from
   * fields rather than written as the `u` wildcard: the finest present tier
   * decides, and a month or day prints the whole code.
   */
  function PrintedDigits(f: DateFields): nat {
    if f.day.Some? || f.month.Some? || f.year.Some? then 4
    else if f.decade.Some? then 3
    else if f.century.Some? then 2
    else if f.millenium.Some? then 1
    else 0
  }

  /** One of the first `k` tiers of the year code is absent. */
  predicate GapBelow(f: DateFields, k: nat) {
    || (k >= 1 && f.millenium.None?) || (k >= 2 && f.century.None?)
    || (k >= 3 && f.decade.None?) || (k >= 4 && f.year.None?)
  }

  /** A coarser tier is missing below the finest present one. */
  predicate HasGap(f: DateFields) {
    GapBelow(f, PrintedDigits(f))
  }

  /** The year code as printed when all four tiers are written out. */
  function FullCode(f: DateFields): string {
    FieldText(f.millenium) + FieldText(f.century) + FieldText(f.decade) + FieldText(f.year)
  }

  /**
   * `ExtendedDateManager.to_edtf`: the finest tier present picks the
   * shape; month and day are zero padded to two digits; coarser tiers are
   * printed without checking that they are present; with nothing present the
   * result is `unknown` and carries no qualifier.
   */
  function ToEdtf(f: DateFields): (r: string)
    requires f.day.Some? ==> f.month.Some?
    ensures |r| >= 4
    ensures r == "unknown" <==> AllAbsent(f)
  {
    if AllAbsent(f) then "unknown"
    else
      var dt := Unqualified(f);
      UnqualifiedEnds(f);
      QualifierEnds(dt, f.uncertain, f.approximate);
      AppendApproximate(AppendUncertain(dt, f.uncertain), f.approximate)
  }

  /**
   * The qualifiers of an encoded side are its last characters: `~` last
   * exactly when approximate, `?` last exactly when uncertain and not
   * approximate, and `?~` when both.
   */
  lemma {:induction false} ToEdtfQualifiers(f: DateFields)
    requires f.day.Some? ==> f.month.Some?
    requires !AllAbsent(f)
    ensures var r := ToEdtf(f);
      && (r[|r| - 1] == '~' <==> f.approximate)
      && (r[|r| - 1] == '?' <==> f.uncertain && !f.approximate)
      && (f.uncertain && f.approximate ==> r[|r| - 2..] == "?~")
  {
    UnqualifiedEnds(f);
    QualifierEnds(Unqualified(f), f.uncertain, f.approximate);
  }

  /** The qualifiers are the last one or two characters and leave the front of the text alone. */
  lemma {:induction false} QualifierEnds(dt: string, uncertain: bool, approximate: bool)
    requires |dt| >= 4 && dt[|dt| - 1] != '?' && dt[|dt| - 1] != '~'
    ensures var r := AppendApproximate(AppendUncertain(dt, uncertain), approximate);
      && |r| >= 4 && r[0] == dt[0]
      && (r[|r| - 1] == '~' <==> approximate)
      && (r[|r| - 1] == '?' <==> uncertain && !approximate)
      && (uncertain && approximate ==> r[|r| - 2..] == "?~")
  {
  }

  /** A printed tier never starts with the wildcard letter. */
  lemma {:induction false} FieldTextFirst(v: Option<int>)
    ensures FieldText(v)[0] != 'u'
  {
    if v.Some? && v.value >= 0 {
      assert IsDigit(NatToString(v.value)[0]);
    }
  }


  /** The branches of `to_edtf` that print digits, before the qualifiers are appended. */
  function Unqualified(f: DateFields): (dt: string)
    requires f.day.Some? ==> f.month.Some?
    requires !AllAbsent(f)
  {
    if f.day.Some? then
      FullCode(f) + "-" + PadTwo(f.month.value) + "-" + PadTwo(f.day.value)
    else if f.month.Some? then
      FullCode(f) + "-" + PadTwo(f.month.value)
    else if f.year.Some? then
      FullCode(f)
    else if f.decade.Some? then
      FieldText(f.millenium) + FieldText(f.century) + FieldText(f.decade) + "u"
    else if f.century.Some? then
      FieldText(f.millenium) + FieldText(f.century) + "uu"
    else
      FieldText(f.millenium) + "uuu"
  }

  /** The digits branch ends in a digit or the wildcard and starts with the millennium text. */
  lemma {:induction false} UnqualifiedEnds(f: DateFields)
    requires f.day.Some? ==> f.month.Some?
    requires !AllAbsent(f)
    ensures var dt := Unqualified(f);
      |dt| >= 4 && dt[|dt| - 1] != '?' && dt[|dt| - 1] != '~' && dt[0] == FieldText(f.millenium)[0]
    ensures Unqualified(f)[0] != 'u'
  {
    var k := PrintedDigits(f);
    UnqualifiedParts(f);
    CodePartEnds(f, k);
    TailEnds(f);
    ConcatEnds(CodePart(f, k), Tail(f));
    FieldTextFirst(f.millenium);
  }

  /** The ends of a concatenation come from its parts. */
  lemma {:induction false} ConcatEnds(a: string, b: string)
    requires |a| > 0
    ensures (a + b)[0] == a[0]
    ensures |b| > 0 ==> (a + b)[|a + b| - 1] == b[|b| - 1]
    ensures |b| == 0 ==> (a + b)[|a + b| - 1] == a[|a| - 1]
  {
  }

  /** Each printed tier has at least one character; the millennium comes first and a present year ends in a digit. */
  lemma {:induction false} CodePartEnds(f: DateFields, k: nat)
    requires 1 <= k <= 4
    ensures var c := CodePart(f, k);
      |c| >= k && c[0] == FieldText(f.millenium)[0]
      && (k == 4 && f.year.Some? ==> IsDigit(c[|c| - 1]))
  {
    var c := CodePart(f, k);
    var m := FieldText(f.millenium);
    if k == 1 {
    } else if k == 2 {
      ConcatEnds(m, FieldText(f.century));
    } else if k == 3 {
      ConcatEnds(m, FieldText(f.century));
      ConcatEnds(m + FieldText(f.century), FieldText(f.decade));
    } else {
      var three := m + FieldText(f.century) + FieldText(f.decade);
      ConcatEnds(m, FieldText(f.century));
      ConcatEnds(m + FieldText(f.century), FieldText(f.decade));
      ConcatEnds(three, FieldText(f.year));
      if f.year.Some? {
        IntToStringLastChar(f.year.value);
      }
    }
  }

  /** The tail fills the year code up to four positions and ends in a digit or the wildcard; it is empty only at year precision. */
  lemma {:induction false} TailEnds(f: DateFields)
    requires f.day.Some? ==> f.month.Some?
    requires !AllAbsent(f)
    ensures var t := Tail(f);
      |t| >= 4 - PrintedDigits(f)
      && (|t| == 0 <==> f.day.None? && f.month.None? && f.year.Some?)
      && (|t| > 0 ==> IsDigit(t[|t| - 1]) || t[|t| - 1] == 'u')
  {
    if f.day.Some? {
      PadTwoLastChar(f.day.value);
    } else if f.month.Some? {
      PadTwoLastChar(f.month.value);
    }
  }

  lemma {:induction false} IntToStringLastChar(n: int)
    ensures var s := IntToString(n); IsDigit(s[|s| - 1])
  {
    var s := NatToString(if n < 0 then -n else n);
    assert IsDigit(s[|s| - 1]);
  }

  lemma {:induction false} PadTwoLastChar(n: int)
    ensures var s := PadTwo(n); IsDigit(s[|s| - 1])
  {
    IntToStringLastChar(n);
  }

  /* ---------- the literal `None` in the stored string ---------- */

  /** The first `k` tiers of the year code as printed. */
  function CodePart(f: DateFields, k: nat): string
    requires 1 <= k <= 4
  {
    if k == 1 then FieldText(f.millenium)
    else if k == 2 then FieldText(f.millenium) + FieldText(f.century)
    else if k == 3 then FieldText(f.millenium) + FieldText(f.century) + FieldText(f.decade)
    else FullCode(f)
  }

  /** What follows the printed tiers before the qualifiers: wildcards, or the padded month and day. */
  function Tail(f: DateFields): string
    requires f.day.Some? ==> f.month.Some?
  {
    if f.day.Some? then "-" + PadTwo(f.month.value) + "-" + PadTwo(f.day.value)
    else if f.month.Some? then "-" + PadTwo(f.month.value)
    else if f.year.Some? then ""
    else if f.decade.Some? then "u"
    else if f.century.Some? then "uu"
    else "uuu"
  }

  function Suffix(f: DateFields): string {
    (if f.uncertain then "?" else "") + (if f.approximate then "~" else "")
  }

  /** Every digits branch splits into the printed tiers and the tail. */
  lemma {:induction false} UnqualifiedParts(f: DateFields)
    requires f.day.Some? ==> f.month.Some?
    requires !AllAbsent(f)
    ensures 1 <= PrintedDigits(f) <= 4
    ensures Unqualified(f) == CodePart(f, PrintedDigits(f)) + Tail(f)
  {
    if f.day.Some? {
    } else if f.month.Some? {
    } else if f.year.Some? {
      assert Unqualified(f) == FullCode(f) + "";
    }
  }

  /** Every encoded side splits into the printed tiers, the tail, and the qualifiers. */
  lemma {:induction false} ToEdtfParts(f: DateFields)
    requires f.day.Some? ==> f.month.Some?
    requires !AllAbsent(f)
    ensures 1 <= PrintedDigits(f) <= 4
    ensures ToEdtf(f) == CodePart(f, PrintedDigits(f)) + Tail(f) + Suffix(f)
  {
    UnqualifiedParts(f);
  }

  predicate Lacks(s: string, c: char) {
    forall i :: 0 <= i < |s| ==> s[i] != c
  }

  lemma {:induction false} LacksConcat(a: string, b: string, c: char)
    requires Lacks(a, c) && Lacks(b, c)
    ensures Lacks(a + b, c)
  {
  }

  /** Decimal text holds only digits and the minus sign. */
  lemma {:induction false} LacksInt(n: int, c: char)
    requires !IsDigit(c) && c != '-'
    ensures Lacks(IntToString(n), c) && Lacks(PadTwo(n), c)
  {
    var s := NatToString(if n < 0 then -n else n);
    assert forall i :: 0 <= i < |s| ==> IsDigit(s[i]);
  }

  lemma {:induction false} LacksTail(f: DateFields, c: char)
    requires f.day.Some? ==> f.month.Some?
    requires !IsDigit(c) && c != '-' && c != 'u'
    ensures Lacks(Tail(f), c)
  {
    if f.day.Some? {
      LacksInt(f.month.value, c);
      LacksInt(f.day.value, c);
    } else if f.month.Some? {
      LacksInt(f.month.value, c);
    }
  }

  lemma {:induction false} ContainsLeft(a: string, b: string, sub: string)
    requires Contains(a, sub)
    ensures Contains(a + b, sub)
  {
    var i :| 0 <= i <= |a| && HasPrefix(a[i..], sub);
    assert (a + b)[i..][..|sub|] == a[i..][..|sub|];
  }

  lemma {:induction false} ContainsRight(a: string, b: string, sub: string)
    requires Contains(b, sub)
    ensures Contains(a + b, sub)
  {
    var i :| 0 <= i <= |b| && HasPrefix(b[i..], sub);
    assert (a + b)[|a| + i..] == b[i..];
  }

  lemma {:induction false} FieldTextNone(v: Option<int>)
    ensures v.None? ==> Contains(FieldText(v), "None")
    ensures v.Some? ==> Lacks(FieldText(v), 'N')
  {
    if v.None? {
      assert HasPrefix(FieldText(v)[0..], "None");
    } else {
      LacksInt(v.value, 'N');
    }
  }

  /** The printed tiers contain `None` exactly when one of them is absent; otherwise they hold no capital N. */
  lemma {:induction false} CodePartNone(f: DateFields, k: nat)
    requires 1 <= k <= 4
    ensures Contains(CodePart(f, k), "None") <==> GapBelow(f, k)
    ensures !GapBelow(f, k) ==> Lacks(CodePart(f, k), 'N')
  {
    var tier := if k == 1 then f.millenium else if k == 2 then f.century
                else if k == 3 then f.decade else f.year;
    FieldTextNone(tier);
    if k == 1 {
      if tier.Some? { NotContainsWithoutFirstChar(CodePart(f, k), "None"); }
    } else {
      CodePartNone(f, k - 1);
      assert CodePart(f, k) == CodePart(f, k - 1) + FieldText(tier);
      assert GapBelow(f, k) <==> GapBelow(f, k - 1) || tier.None?;
      if tier.None? {
        ContainsRight(CodePart(f, k - 1), FieldText(tier), "None");
      } else if GapBelow(f, k - 1) {
        ContainsLeft(CodePart(f, k - 1), FieldText(tier), "None");
      } else {
        LacksConcat(CodePart(f, k - 1), FieldText(tier), 'N');
        NotContainsWithoutFirstChar(CodePart(f, k), "None");
      }
    }
  }

  /** Text without a capital N after the printed tiers cannot complete a `None`. */
  lemma {:induction false} NoneOnlyInCode(code: string, tail: string, suffix: string, gap: bool)
    requires Contains(code, "None") <==> gap
    requires !gap ==> Lacks(code, 'N')
    requires Lacks(tail, 'N') && Lacks(suffix, 'N')
    ensures Contains(code + tail + suffix, "None") <==> gap
  {
    var rest := tail + suffix;
    LacksConcat(tail, suffix, 'N');
    assert code + tail + suffix == code + rest;
    if gap {
      ContainsLeft(code, rest, "None");
    } else {
      LacksConcat(code, rest, 'N');
      NotContainsWithoutFirstChar(code + rest, "None");
    }
  }

  /**
   * A missing coarser tier is written as the literal text `None`: the
   * stored string contains `None` exactly when some tier the chosen shape
   * prints is absent.
   */
  lemma {:induction false} ToEdtfNoneIffGap(f: DateFields)
    requires f.day.Some? ==> f.month.Some?
    ensures Contains(ToEdtf(f), "None") <==> HasGap(f)
  {
    if AllAbsent(f) {
      NotContainsWithoutFirstChar("unknown", "None");
    } else {
      var k := PrintedDigits(f);
      ToEdtfParts(f);
      CodePartNone(f, k);
      LacksTail(f, 'N');
      NoneOnlyInCode(CodePart(f, k), Tail(f), Suffix(f), HasGap(f));
    }
  }

  /**
   * A day without a month: `'{:0>2d}'` receives `None` for the month, which
   * that format rejects with `TypeError`, so `to_edtf` raises.
   */
  predicate DayWithoutMonth(f: DateFields) {
    f.day.Some? && f.month.None?
  }

  /** `to_edtf` with its failure made explicit: nothing where it raises, the encoded side elsewhere. */
  function EncodeSide(f: DateFields): (r: Option<string>)
    ensures r.None? <==> DayWithoutMonth(f)
    ensures r.Some? ==> |r.value| >= 4 && (r.value == "unknown" <==> AllAbsent(f)) && '/' !in r.value
  {
    if DayWithoutMonth(f) then None
    else
      NoSlashInSide(f);
      Some(ToEdtf(f))
  }

  /* ---------- the dictionary front end ---------- */

  /** A value of the cleaned form dictionary. */
  datatype FormValue = Null | Num(n: int) | Flag(b: bool)

  /** Python's `dict.get(key)`: a missing key reads as `None`. */
  function Get(values: map<string, FormValue>, key: string): (v: FormValue)
    ensures key !in values ==> v == Null
  {
    if key in values then values[key] else Null
  }

  /** Python truthiness of a form value. */
  predicate Truthy(v: FormValue) {
    match v
    case Null => false
    case Num(n) => n != 0
    case Flag(b) => b
  }

  /** A digit field of the dictionary, as `to_edtf` sees it. */
  function Digit(v: FormValue): Option<int>
    requires !v.Flag?
  {
    if v.Num? then Some(v.n) else None
  }

  const DigitNames: seq<string> := ["millenium", "century", "decade", "year", "month", "day"]

  /** The digit keys of one side hold integers or nothing (Django's integer fields never give flags). */
  predicate WellTypedSide(values: map<string, FormValue>, side: string) {
    forall i :: 0 <= i < |DigitNames| ==> !Get(values, DigitNames[i] + side).Flag?
  }

  /** The fields of side `side` ("1" or "2"), read key by key with missing keys as `None`. */
  function SideFields(values: map<string, FormValue>, side: string): DateFields
    requires WellTypedSide(values, side)
  {
    assert !Get(values, DigitNames[0] + side).Flag?;
    assert !Get(values, DigitNames[1] + side).Flag?;
    assert !Get(values, DigitNames[2] + side).Flag?;
    assert !Get(values, DigitNames[3] + side).Flag?;
    assert !Get(values, DigitNames[4] + side).Flag?;
    assert !Get(values, DigitNames[5] + side).Flag?;
    DateFields(
      Digit(Get(values, "millenium" + side)), Digit(Get(values, "century" + side)),
      Digit(Get(values, "decade" + side)), Digit(Get(values, "year" + side)),
      Digit(Get(values, "month" + side)), Digit(Get(values, "day" + side)),
      Truthy(Get(values, "approximate" + side)), Truthy(Get(values, "uncertain" + side)))
  }

  predicate IsRange(values: map<string, FormValue>) {
    Truthy(Get(values, "is_range"))
  }

  /** The digit keys hold integers or nothing on every side `from_dict` reads. */
  predicate WellTyped(values: map<string, FormValue>) {
    WellTypedSide(values, "1") && (IsRange(values) ==> WellTypedSide(values, "2"))
  }

  /** Where `from_dict` returns rather than raises: no side it reads has a day without a month. */
  predicate Encodable(values: map<string, FormValue>) {
    && WellTyped(values)
    && !DayWithoutMonth(SideFields(values, "1"))
    && (IsRange(values) ==> !DayWithoutMonth(SideFields(values, "2")))
  }

  /** A character that is not a digit, minus sign, wildcard or letter of `None` is absent from the printed tiers. */
  lemma {:induction false} LacksCodePart(f: DateFields, k: nat, c: char)
    requires 1 <= k <= 4
    requires !IsDigit(c) && c != '-' && c != 'N' && c != 'o' && c != 'n' && c != 'e'
    ensures Lacks(CodePart(f, k), c)
  {
    forall v: Option<int> ensures Lacks(FieldText(v), c) {
      if v.Some? { LacksInt(v.value, c); }
    }
    LacksConcat(FieldText(f.millenium), FieldText(f.century), c);
    LacksConcat(FieldText(f.millenium) + FieldText(f.century), FieldText(f.decade), c);
    LacksConcat(FieldText(f.millenium) + FieldText(f.century) + FieldText(f.decade), FieldText(f.year), c);
  }

  /** An encoded side never contains the range separator. */
  lemma {:induction false} NoSlashInSide(f: DateFields)
    requires f.day.Some? ==> f.month.Some?
    ensures '/' !in ToEdtf(f)
  {
    if !AllAbsent(f) {
      ToEdtfParts(f);
      var k := PrintedDigits(f);
      LacksCodePart(f, k, '/');
      LacksTail(f, '/');
      LacksConcat(CodePart(f, k), Tail(f), '/');
      LacksConcat(CodePart(f, k) + Tail(f), Suffix(f), '/');
      assert Lacks(ToEdtf(f), '/');
    }
  }

  /**
   * `ExtendedDateManager.from_dict`: side 1 always, side 2 only when
   * `is_range` is truthy, joined by a single `/`.
   */
  function FromDict(values: map<string, FormValue>): (r: string)
    requires Encodable(values)
    ensures '/' in r <==> IsRange(values)
    ensures !IsRange(values) ==> r == ToEdtf(SideFields(values, "1"))
    ensures IsRange(values) ==> exists k :: (0 <= k < |r| && r[k] == '/'
      && r[..k] == ToEdtf(SideFields(values, "1")) && r[k + 1..] == ToEdtf(SideFields(values, "2")))
  {
    var dt := ToEdtf(SideFields(values, "1"));
    NoSlashInSide(SideFields(values, "1"));
    if IsRange(values) then
      var dt2 := ToEdtf(SideFields(values, "2"));
      NoSlashInSide(SideFields(values, "2"));
      JoinSides(dt, dt2);
      dt + "/" + dt2
    else
      dt
  }

  /**
   * `from_dict` with its failure made explicit: nothing when the encoding of
   * side 1, or of side 2 in a range, raises; the joined string otherwise.
   */
  function FromDictChecked(values: map<string, FormValue>): (r: Option<string>)
    requires WellTyped(values)
    ensures r.None? <==>
      DayWithoutMonth(SideFields(values, "1")) || (IsRange(values) && DayWithoutMonth(SideFields(values, "2")))
    ensures r.Some? ==> Encodable(values) && r.value == FromDict(values)
  {
    var dt := EncodeSide(SideFields(values, "1"));
    if dt.None? then None
    else if !IsRange(values) then dt
    else
      var dt2 := EncodeSide(SideFields(values, "2"));
      if dt2.None? then None else Some(dt.value + "/" + dt2.value)
  }

  /** A form with only a day filled in, within the day field's bounds, makes `from_dict` raise. */
  lemma {:induction false} DayAloneRaises(day: int)
    requires 1 <= day <= 31
    ensures WellTyped(map["day1" := Num(day)])
    ensures FromDictChecked(map["day1" := Num(day)]).None?
  {
    var values := map["day1" := Num(day)];
    forall i | 0 <= i < |DigitNames| ensures !Get(values, DigitNames[i] + "1").Flag? {
    }
    assert WellTypedSide(values, "1");
    assert Get(values, "is_range") == Null;
    assert "day" + "1" == "day1" && "month" + "1" == "month1";
    assert Get(values, "month1") == Null;
  }

  /** The separator of a joined range is found right after the first side. */
  lemma {:induction false} JoinSides(dt: string, dt2: string)
    ensures var r := dt + "/" + dt2;
      '/' in r && r[|dt|] == '/' && r[..|dt|] == dt && r[|dt| + 1..] == dt2
  {
    var r := dt + "/" + dt2;
    assert r[|dt|] == '/';
    assert r[..|dt|] == dt;
    assert r[|dt| + 1..] == dt2;
  }

  /** Two dictionaries that answer every `get` alike encode alike. */
  lemma {:induction false} SameGetsSameFields(v1: map<string, FormValue>, v2: map<string, FormValue>, side: string)
    requires forall k :: Get(v1, k) == Get(v2, k)
    ensures WellTypedSide(v1, side) == WellTypedSide(v2, side)
    ensures IsRange(v1) == IsRange(v2)
    ensures WellTypedSide(v1, side) ==> SideFields(v1, side) == SideFields(v2, side)
  {
  }

  /** Writing `None` explicitly for a missing key changes nothing. */
  lemma {:induction false} MissingKeyIsNull(values: map<string, FormValue>, key: string)
    requires key !in values
    requires Encodable(values)
    ensures Encodable(values[key := Null])
    ensures FromDict(values[key := Null]) == FromDict(values)
  {
    var v2 := values[key := Null];
    forall k ensures Get(v2, k) == Get(values, k) {
    }
    SameGetsSameFields(v2, values, "1");
    SameGetsSameFields(v2, values, "2");
  }

  /* ---------- ExtendedDate ---------- */

  /**
   * `ExtendedDate.__str__`: an empty value and the `unknown` marker show as
   * nothing; anything else shows the text rendered for its parse.
   */
  function DisplayText(edtfFormat: string, rendered: string): (r: string)
    ensures |edtfFormat| < 1 || edtfFormat == "unknown" ==> r == ""
    ensures |edtfFormat| >= 1 && edtfFormat != "unknown" ==> r == rendered
  {
    if |edtfFormat| < 1 || edtfFormat == "unknown" then "" else rendered
  }

  /** A form with no digits on side 1 and no range is stored as `unknown` and so displays as nothing. */
  lemma {:induction false} EmptyFormDisplaysNothing(values: map<string, FormValue>, rendered: string)
    requires Encodable(values)
    ensures FromDict(values) == "unknown" <==> !IsRange(values) && AllAbsent(SideFields(values, "1"))
    ensures !IsRange(values) && AllAbsent(SideFields(values, "1")) ==> DisplayText(FromDict(values), rendered) == ""
  {
    if IsRange(values) {
      assert '/' in FromDict(values);
      assert '/' !in "unknown";
    }
  }

  /** A calendar date as Python's `datetime.date` holds it. */
  datatype Date = Date(year: int, month: int, day: int)

  /** Python's ordering of dates: by year, then month, then day. */
  predicate After(a: Date, b: Date) {
    || a.year > b.year
    || (a.year == b.year && a.month > b.month)
    || (a.year == b.year && a.month == b.month && a.day > b.day)
  }

  /** The year of `date.max`, which the date library returns when it cannot build a date. */
  const MaxYear: int := 9999

  /**
   * `ExtendedDate._validate_python_date` (and the wrapper's copy): a date in
   * the year of `date.max` is the library's failure sentinel and reads as
   * no date; any other date is returned unchanged.
   */
  function ValidatePythonDate(dt: Date): (r: Option<Date>)
    ensures r.None? <==> dt.year == 9999
    ensures r.Some? ==> r.value == dt
  {
    if dt.year == MaxYear then None else Some(dt)
  }
}

=== FILE: utils.dfy ===
/**
 * The display side of an extended date (writlarge/main/utils.py): the
 * wrapper that turns the date library's parse of a stored string into
 * English text and back into form fields, plus the two small helpers
 * `filter_fields` and `format_date_range`.
 *
 * The parse itself belongs to the python-edtf library; its outcome is an
 * input here (`ParseResult`), holding sides as the library presents them:
 * the year code, month and day as the strings it parsed, a precision, and
 * the two qualifier flags.
 */
module Utils {
  import opened Common

  datatype Precision = YearPrecision | MonthPrecision | DayPrecision | OtherPrecision(name: string)

  /** The two range modifiers the wrapper keeps as plain strings. */
  datatype Modifier = UnknownModifier | OpenModifier

  /** What the wrapper holds for one side of a date. */
  datatype Side =
    | Invalid
    | Sentinel(modifier: Modifier)
    | Dated(year: string, month: Option<string>, day: Option<string>,
            precision: Precision, uncertain: bool, approximate: bool)

  /** The outcome of `parse_edtf` on the stored string. */
  datatype ParseResult = Failed | Single(side: Side) | Interval(lower: Side, upper: Side)

  /** A position of a code: a digit or the `u` wildcard. */
  predicate CodeChar(c: char) {
    IsDigit(c) || c == 'u'
  }

  predicate CodeText(s: string, n: nat) {
    |s| == n && forall i :: 0 <= i < |s| ==> CodeChar(s[i])
  }

  /**
   * The shape the date library gives a dated side: a four-position year
   * code, two-position month and day codes, and a precision that has the
   * parts it names.
   */
  predicate WellFormed(s: Side) {
    s.Dated? ==>
      && CodeText(s.year, 4)
      && (s.month.Some? ==> CodeText(s.month.value, 2))
      && (s.day.Some? ==> CodeText(s.day.value, 2))
      && (s.precision == DayPrecision ==> s.month.Some? && s.day.Some?)
      && (s.precision == MonthPrecision ==> s.month.Some?)
  }

  function ModifierText(m: Modifier): string {
    match m
    case UnknownModifier => "unknown"
    case OpenModifier => "open"
  }

  /**
   * `ExtendedDateWrapper.create`: an upper side exists only for an
   * interval; a string the library rejects becomes a sentinel when it is
   * one of the two modifiers and an invalid side otherwise.
   */
  function Create(parsed: ParseResult, edtfFormat: string): (r: (Side, Option<Side>))
    ensures r.1.Some? <==> parsed.Interval?
    ensures parsed.Interval? ==> r == (parsed.lower, Some(parsed.upper))
    ensures parsed.Single? ==> r.0 == parsed.side
    ensures parsed.Failed? ==> (r.0.Sentinel? <==> edtfFormat in {"unknown", "open"})
    ensures parsed.Failed? && r.0.Sentinel? ==> ModifierText(r.0.modifier) == edtfFormat
    ensures parsed.Failed? ==> r.0.Sentinel? || r.0.Invalid?
  {
    match parsed
    case Interval(lower, upper) => (lower, Some(upper))
    case Single(side) => (side, None)
    case Failed =>
      if edtfFormat == "unknown" then (Sentinel(UnknownModifier), None)
      else if edtfFormat == "open" then (Sentinel(OpenModifier), None)
      else (Invalid, None)
  }

  /** `is_empty`: the side is the `unknown` modifier. */
  predicate IsEmpty(s: Side) {
    s == Sentinel(UnknownModifier)
  }

  /** `is_invalid`: the library could not parse the side. */
  predicate IsInvalid(s: Side) {
    s.Invalid?
  }

  /* ---------- ordinals ---------- */

  const OrdinalLetters: string := "tsnrhtdd"

  /** `"tsnrhtdd"[i::4]`: the two letters at `i` and `i + 4`. */
  function SuffixAt(i: nat): (r: string)
    requires i < 4
    ensures |r| == 2
  {
    [OrdinalLetters[i], OrdinalLetters[i + 4]]
  }

  /**
   * `ordinal` as written. Under Python 3 `n / 10` is a float, and its
   * remainder modulo 10 equals 1 only when `n` ends in 10; so the test meant
   * to exclude the teens never excludes them.
   */
  function OrdinalAsWritten(n: nat): string {
    var notTeen := if n % 100 != 10 then 1 else 0;
    var small := if n % 10 < 4 then 1 else 0;
    NatToString(n) + SuffixAt((notTeen * small * n) % 10)
  }

  /** `ordinal` with the integer division of the Python 2 original: 11, 12 and 13 take `th`. */
  function Ordinal(n: nat): string {
    var notTeen := if (n / 10) % 10 != 1 then 1 else 0;
    var small := if n % 10 < 4 then 1 else 0;
    NatToString(n) + SuffixAt((notTeen * small * n) % 10)
  }

  /** The English suffix of an ordinal number. */
  function EnglishSuffix(n: nat): string {
    if n % 100 / 10 == 1 then "th"
    else if n % 10 == 1 then "st"
    else if n % 10 == 2 then "nd"
    else if n % 10 == 3 then "rd"
    else "th"
  }

  /** The suffix of `Ordinal` follows English usage, teens included. */
  lemma {:induction false} OrdinalSuffix(n: nat)
    ensures Ordinal(n) == NatToString(n) + EnglishSuffix(n)
  {
    var notTeen := if (n / 10) % 10 != 1 then 1 else 0;
    var small := if n % 10 < 4 then 1 else 0;
    TensDigit(n);
    SelectedDigit(notTeen, small, n);
    SuffixTable();
  }

  /** The tens digit, read from the quotient or from the last two digits. */
  lemma {:induction false} TensDigit(n: nat)
    ensures (n / 10) % 10 == n % 100 / 10
  {
    var q := n / 100;
    var r := n % 100;
    assert n == 100 * q + r;
    assert n / 10 == 10 * q + r / 10;
  }

  /** A product of two 0/1 flags with `n`, taken modulo 10: the last digit when both flags are set, else 0. */
  lemma {:induction false} SelectedDigit(a: int, b: int, n: nat)
    requires (a == 0 || a == 1) && (b == 0 || b == 1)
    ensures (a * b * n) % 10 == if a == 1 && b == 1 then n % 10 else 0
  {
    if a == 1 && b == 1 {
      assert a * b * n == n;
    } else {
      assert a * b == 0;
      assert a * b * n == 0;
    }
  }

  lemma {:induction false} SuffixTable()
    ensures SuffixAt(0) == "th" && SuffixAt(1) == "st" && SuffixAt(2) == "nd" && SuffixAt(3) == "rd"
  {
  }

  /** The as-written ordinal gives `11st` for eleven. */
  lemma {:induction false} OrdinalAsWrittenEleven()
    ensures OrdinalAsWritten(11) == "11st"
    ensures Ordinal(11) == "11th"
  {
    assert NatToString(11) == "11";
  }

  /** Outside the teens the as-written ordinal and the corrected one agree. */
  lemma {:induction false} OrdinalsAgreeOutsideTeens(n: nat)
    requires n % 100 / 10 != 1
    ensures OrdinalAsWritten(n) == Ordinal(n)
  {
    TensDigit(n);
  }

  /* ---------- the parts of the display text ---------- */

  const MonthNames: seq<string> := [
    "January", "February", "March", "April", "May", "June", "July",
    "August", "September", "October", "November", "December"]

  /** Python's `int()` on a two-position month code: only digits read. */
  function MonthNumber(month: string): Option<int>
    requires CodeText(month, 2)
  {
    if AllDigits(month) then Some(DigitsValue(month)) else None
  }

  /** `fmt_month`: the English name of month 1..12, `unknown month` for anything else. */
  function FmtMonth(month: string): (r: string)
    requires CodeText(month, 2)
    ensures r == "unknown month" || r in MonthNames
    ensures r == "unknown month" <==> !(MonthNumber(month).Some? && 1 <= MonthNumber(month).value <= 12)
  {
    var m := MonthNumber(month);
    if m.Some? && 1 <= m.value <= 12 then MonthNames[m.value - 1] else "unknown month"
  }

  /** `_precise_year(EARLIEST)`: the year code read with every wildcard as 0. */
  function PreciseYear(year: string): nat
    requires CodeText(year, 4)
  {
    var digits := seq(|year|, i requires 0 <= i < |year| => if year[i] == 'u' then '0' else year[i]);
    DigitsValue(digits)
  }

  /** `fmt_millenium`: the ordinal of the following millennium, with the source's own `ordinal`. */
  function FmtMillenium(digit: nat): string {
    OrdinalAsWritten(digit + 1) + " millenium"
  }

  /** `fmt_century`: the year followed by `s`. */
  function FmtCentury(year: nat): string {
    NatToString(year) + "s"
  }

  predicate OneOrTwo(c: char) {
    c == '1' || c == '2'
  }

  /** `([1-2])uuu` matched at the start of the year code. */
  predicate MilleniumCode(y: string) requires |y| == 4 {
    OneOrTwo(y[0]) && y[1..] == "uuu"
  }

  /** `([1-2][0-9])uu` matched at the start of the year code. */
  predicate CenturyCode(y: string) requires |y| == 4 {
    OneOrTwo(y[0]) && IsDigit(y[1]) && y[2..] == "uu"
  }

  /** `([1-2][0-9][0-9])u` matched at the start of the year code. */
  predicate DecadeCode(y: string) requires |y| == 4 {
    OneOrTwo(y[0]) && IsDigit(y[1]) && IsDigit(y[2]) && y[3] == 'u'
  }

  /** The year-precision branch of `fmt_precision`. */
  function FmtYear(year: string): string
    requires CodeText(year, 4)
  {
    if MilleniumCode(year) then FmtMillenium(year[0] as int - '0' as int)
    else if CenturyCode(year) then FmtCentury(PreciseYear(year))
    else if DecadeCode(year) then NatToString(PreciseYear(year)) + "s"
    else NatToString(PreciseYear(year))
  }

  /**
   * `fmt_precision`: day precision reads `<Month> <day>, <year>`, month
   * precision `<Month> <year>` (both with the library's own strings), year
   * precision goes through the year-code patterns, and any other precision
   * is `invalid`.
   */
  function FmtPrecision(s: Side): string
    requires s.Dated? && WellFormed(s)
  {
    match s.precision
    case OtherPrecision(_) => "invalid"
    case DayPrecision => FmtMonth(s.month.value) + " " + s.day.value + ", " + s.year
    case MonthPrecision => FmtMonth(s.month.value) + " " + s.year
    case YearPrecision => FmtYear(s.year)
  }

  /**
   * `format`: the sentinels first, then the precision text, then `?` for
   * an uncertain side and a leading `c. ` for an approximate one.
   */
  function Format(s: Side): string
    requires WellFormed(s)
  {
    match s
    case Invalid => "invalid"
    case Sentinel(OpenModifier) => "present"
    case Sentinel(UnknownModifier) => "?"
    case Dated(_, _, _, _, uncertain, approximate) =>
      var result := FmtPrecision(s);
      var result := if uncertain then result + "?" else result;
      if approximate then "c. " + result else result
  }

  /* ---------- what the display text says about the side ---------- */

  /** Decimal text starts with a digit and ends with a digit. */
  lemma {:induction false} NatToStringEnds(n: nat)
    ensures IsDigit(NatToString(n)[0]) && IsDigit(NatToString(n)[|NatToString(n)| - 1])
  {
  }

  /**
   * The precision text of a dated side is never empty, never starts with
   * `c` or `p`, and never ends with `?`; this keeps the sentinel texts and
   * the qualifiers readable from the result.
   */
  lemma {:induction false} FmtPrecisionEnds(s: Side)
    requires s.Dated? && WellFormed(s)
    ensures var t := FmtPrecision(s); |t| > 0 && t[0] != 'c' && t[0] != 'p' && t[0] != '?' && t[|t| - 1] != '?'
  {
    var t := FmtPrecision(s);
    match s.precision
    case OtherPrecision(_) =>
    case DayPrecision =>
      var m := FmtMonth(s.month.value);
      assert t[0] == m[0];
      assert t[|t| - 1] == s.year[3];
    case MonthPrecision =>
      var m := FmtMonth(s.month.value);
      assert t[0] == m[0];
      assert t[|t| - 1] == s.year[3];
    case YearPrecision =>
      var y := s.year;
      if MilleniumCode(y) {
        var o := OrdinalAsWritten((y[0] as int - '0' as int) + 1);
        NatToStringEnds((y[0] as int - '0' as int) + 1);
        assert t[0] == o[0];
      } else {
        NatToStringEnds(PreciseYear(y));
        var d := NatToString(PreciseYear(y));
        assert t[0] == d[0];
      }
  }

  /**
   * The three reserved texts: `invalid` comes only from an invalid side or
   * an unqualified side of unsupported precision, `?` only from the
   * `unknown` modifier and `present` only from `open`.
   */
  lemma {:induction false} ReservedTexts(s: Side)
    requires WellFormed(s)
    ensures Format(s) == "?" <==> IsEmpty(s)
    ensures Format(s) == "present" <==> s == Sentinel(OpenModifier)
    ensures Format(s) == "invalid" <==>
      IsInvalid(s) || (s.Dated? && s.precision.OtherPrecision? && !s.uncertain && !s.approximate)
  {
    if s.Dated? {
      FmtPrecisionEnds(s);
      var t := FmtPrecision(s);
      var r := Format(s);
      if s.approximate {
        assert r[0] == 'c';
      } else if s.uncertain {
        assert r == t + "?";
        assert r[0] == t[0];
        assert r[|r| - 1] == '?';
      } else {
        assert r == t;
        if r == "invalid" {
          if !s.precision.OtherPrecision? {
            FmtPrecisionNotInvalid(s);
          }
        }
      }
    }
  }

  /** Only an unsupported precision renders as `invalid`. */
  lemma {:induction false} FmtPrecisionNotInvalid(s: Side)
    requires s.Dated? && WellFormed(s) && !s.precision.OtherPrecision?
    ensures FmtPrecision(s) != "invalid"
  {
    var t := FmtPrecision(s);
    if s.precision == YearPrecision {
      var y := s.year;
      if MilleniumCode(y) {
        NatToStringEnds((y[0] as int - '0' as int) + 1);
        assert IsDigit(t[0]);
      } else {
        NatToStringEnds(PreciseYear(y));
        assert IsDigit(t[0]);
      }
    } else {
      var m := FmtMonth(s.month.value);
      assert t[0] == m[0];
    }
  }

  /** The qualifiers can be read back from the text of a dated side. */
  lemma {:induction false} QualifiersReadBack(s: Side)
    requires s.Dated? && WellFormed(s)
    ensures s.approximate <==> HasPrefix(Format(s), "c. ")
    ensures s.uncertain <==> Format(s)[|Format(s)| - 1] == '?'
  {
    FmtPrecisionEnds(s);
    var t := FmtPrecision(s);
    var u := if s.uncertain then t + "?" else t;
    assert |u| > 0 && u[0] == t[0];
    assert s.uncertain <==> u[|u| - 1] == '?';
    var r := Format(s);
    assert r == if s.approximate then "c. " + u else u;
    if s.approximate {
      assert r[3..] == u;
      assert r[|r| - 1] == u[|u| - 1];
    } else {
      assert r[0] == t[0];
    }
  }

  /* ---------- back to form fields ---------- */

  /** A value of the dictionary `to_dict` returns. */
  datatype DictValue = DNone | DText(text: string) | DFlag(flag: bool)

  const DictNames: seq<string> := [
    "approximate", "uncertain", "millenium", "century", "decade", "year", "month", "day"]

  function OptionText(v: Option<string>): DictValue {
    if v.Some? then DText(v.value) else DNone
  }

  /** A year-code position for the form: the wildcard reads as no digit. */
  function CodeDigit(c: char): DictValue {
    if c == 'u' then DNone else DText([c])
  }

  /**
   * `to_dict`: nothing for an invalid side or a modifier; otherwise the
   * eight form fields of the side, each key carrying the ordinal, with the
   * millennium always the first code position and a wildcard century,
   * decade or year as no value.
   */
  function ToDict(s: Side, ordinal: int): (r: map<string, DictValue>)
    requires WellFormed(s)
    ensures !s.Dated? ==> r == map[]
    ensures s.Dated? ==> r.Keys == DictKeys(IntToString(ordinal))
    ensures s.Dated? ==> r["millenium" + IntToString(ordinal)] == DText([s.year[0]])
    ensures s.Dated? ==>
      && (r["century" + IntToString(ordinal)] == DNone <==> s.year[1] == 'u')
      && (r["decade" + IntToString(ordinal)] == DNone <==> s.year[2] == 'u')
      && (r["year" + IntToString(ordinal)] == DNone <==> s.year[3] == 'u')
  {
    if !s.Dated? then map[]
    else
      var o := IntToString(ordinal);
      map[
        "approximate" + o := DFlag(s.approximate),
        "uncertain" + o := DFlag(s.uncertain),
        "millenium" + o := DText([s.year[0]]),
        "century" + o := CodeDigit(s.year[1]),
        "decade" + o := CodeDigit(s.year[2]),
        "year" + o := CodeDigit(s.year[3]),
        "month" + o := OptionText(s.month),
        "day" + o := OptionText(s.day)]
  }

  /** The keys `to_dict` fills: every field name followed by the ordinal. */
  function DictKeys(o: string): set<string> {
    {"approximate" + o, "uncertain" + o, "millenium" + o, "century" + o,
     "decade" + o, "year" + o, "month" + o, "day" + o}
  }

  /** Whatever the ordinal, a dated side fills eight distinct keys, one per field name. */
  lemma {:induction false} DictKeysCount(o: string)
    ensures |DictKeys(o)| == |DictNames| == 8
    ensures forall k :: k in DictKeys(o) <==> exists i :: 0 <= i < |DictNames| && k == DictNames[i] + o
  {
    DistinctDictKeys(o);
    var ks := seq(|DictNames|, i requires 0 <= i < |DictNames| => DictNames[i] + o);
    assert ks[0] == "approximate" + o && ks[1] == "uncertain" + o && ks[2] == "millenium" + o;
    assert ks[3] == "century" + o && ks[4] == "decade" + o && ks[5] == "year" + o;
    assert ks[6] == "month" + o && ks[7] == "day" + o;
    var byIndex := set i | 0 <= i < |ks| :: ks[i];
    assert ks[0] in byIndex && ks[1] in byIndex && ks[2] in byIndex && ks[3] in byIndex;
    assert ks[4] in byIndex && ks[5] in byIndex && ks[6] in byIndex && ks[7] in byIndex;
    assert DictKeys(o) == byIndex;
    DistinctCard(ks);
  }

  lemma {:induction false} DistinctCard(ks: seq<string>)
    requires forall i, j :: 0 <= i < j < |ks| ==> ks[i] != ks[j]
    ensures |set i | 0 <= i < |ks| :: ks[i]| == |ks|
    decreases |ks|
  {
    if |ks| > 0 {
      var init := ks[..|ks| - 1];
      DistinctCard(init);
      var a := set i | 0 <= i < |init| :: init[i];
      assert (set i | 0 <= i < |ks| :: ks[i]) == a + {ks[|ks| - 1]};
      assert ks[|ks| - 1] !in a;
    }
  }

  /** The eight keys of `to_dict` are different strings whatever the ordinal. */
  lemma {:induction false} DistinctDictKeys(o: string)
    ensures forall i, j :: 0 <= i < j < |DictNames| ==> DictNames[i] + o != DictNames[j] + o
  {
    forall i, j | 0 <= i < j < |DictNames|
      ensures DictNames[i] + o != DictNames[j] + o
    {
      var a, b := DictNames[i], DictNames[j];
      if |a| == |b| {
        assert a[0] != b[0];
        assert (a + o)[0] == a[0] && (b + o)[0] == b[0];
      } else {
        assert |a + o| != |b + o|;
      }
    }
  }

  /* ---------- filter_fields and format_date_range ---------- */

  /**
   * `filter_fields`: keeps the keys that start with the prefix, with the
   * prefix removed and the value unchanged.
   */
  method FilterFields<V>(data: map<string, V>, prefix: string) returns (r: map<string, V>)
    ensures forall k :: k in r <==> prefix + k in data
    ensures forall k :: k in r ==> r[k] == data[prefix + k]
  {
    r := map[];
    var keys := data.Keys;
    while keys != {}
      invariant keys <= data.Keys
      invariant forall k :: k in r <==> prefix + k in data && prefix + k !in keys
      invariant forall k :: k in r ==> r[k] == data[prefix + k]
      decreases keys
    {
      var k :| k in keys;
      if HasPrefix(k, prefix) {
        assert prefix + k[|prefix|..] == k;
        r := r[k[|prefix|..] := data[k]];
      }
      keys := keys - {k};
      forall j | prefix + j == k
        ensures HasPrefix(k, prefix) && j == k[|prefix|..]
      {
        assert k[..|prefix|] == prefix;
      }
    }
  }

  /** The text of an optional date: a missing object shows as nothing. */
  function TextOf(d: Option<string>): string {
    if d.Some? then d.value else ""
  }

  /** A date side with no text shows as `?`. */
  function OrQuestion(t: string): string {
    if |t| > 0 then t else "?"
  }

  /**
   * `format_date_range`: an open-ended range reads `<start> - present`
   * whatever its end; an ended one reads `<start> - <end>`; a side with no
   * text reads `?`. The arguments are the texts of the two dates (`None`
   * when there is no date object).
   */
  function FormatDateRange(start: Option<string>, isEnded: bool, end: Option<string>): (r: string)
    ensures !isEnded ==> r == OrQuestion(TextOf(start)) + " - present"
    ensures isEnded ==> r == OrQuestion(TextOf(start)) + " - " + OrQuestion(TextOf(end))
  {
    var start := TextOf(start);
    var end := TextOf(end);
    if |start| > 0 then
      if !isEnded then start + " - present"
      else if |end| < 1 then start + " - ?"
      else start + " - " + end
    else if !isEnded then "? - present"
    else if |end| > 0 then "? - " + end
    else "? - ?"
  }
}
